=== FILE: README.md ===
# Event slot booking: a verified model

This project models an event-slot booking application in Dafny. It has two sides:

- **A React client.** It shows a Monday-to-Sunday calendar of bookable time slots. A user books and unbooks slots, and the colour of each slot depends on who holds it and on the user's category preferences. Administrators create, edit, delete and assign slots.
- **A Django REST server.** It stores the slots, books and unbooks them, registers users, filters the slot list by week, and issues access tokens.

The model covers the logic both sides depend on:

- the week arithmetic and the day-by-day grouping of slots;
- the colour and button chosen for each slot;
- the identity read from the token;
- the preference toggle;
- the two administrator panels' form and assignment handlers;
- the booking, unsubscribe and sign-up views;
- the week window of the slot list;
- the permission and serializer choice per action;
- the serializers' validation and updates, and the token claims.

How client state is modelled:

- Each component's state is a class with fields, and each event handler is a method.
- A handler's `ensures` states the whole new state and the request it sends.
- The server's reply to that request is a parameter of the method.

How server logic is modelled:

- Server views and serializers are functions over the stored records.
- The two views that change a slot in place are also methods on a `SlotTable` class. Their contracts tie them to those functions.
- Sign-up, which adds a user, is likewise a method on an `AccountStore` class.

Representation choices:

- **Dates.** Dates are day numbers, with day 0 being Thursday 1 January 1970. A client moment is a day plus a millisecond within that day. A server instant is milliseconds since the epoch.
- **Users.** Users are identified by username.
- **JavaScript values.** These are a small datatype (`Js.Value`), so that truthiness, `||` and `===` behave as in the client.
- **Parameters.** "Now", "today", the client's parsing of ISO text into a local moment, Django's password validators and the reply to each request are all parameters.

Modules:

- `Wrappers`, `Digits` and `Js` (`base.dfy`) hold shared pieces.
- `Api` holds the JSON records and requests.
- `Calendar` covers `helpers.js`, including its copy in `UserView.js`.
- `UserView`, `Preferences`, `SlotForm`, `AdminView` and `AdminSlots` cover the client components.
- `Models` covers the server records.
- `BookingViews`, `Accounts` and `SlotViewSet` cover `views.py`.
- `Serializers` covers `serializers.py`.
- `EndToEnd` holds properties that join client and server.

Three facts about the code shape the model:

- **Category shape.** The slot list sends `category` as the category's name, not as a record with an `id`. See Findings.
- **The server.** The Django server is part of the repository and is modelled alongside the client.
- **Week window.** The server's week window includes the following Monday's midnight.

## Model

| member | source | states |
|---|---|---|
| Digits.NatToString | frontend/event-booking-frontend/src/helpers.js:13-14 | `toString()` of a whole number: at least one character, all decimal digits, one character exactly below 10, no leading zero otherwise |
| Digits.NatToStringLength | frontend/event-booking-frontend/src/UserView.js:69 | a number below 10^d is written with at most d digits |
| Digits.ValueOfNatToString | frontend/event-booking-frontend/src/helpers.js:13-14 | the text of a number reads back as that number |
| Digits.ValueIgnoresLeadingZero | frontend/event-booking-frontend/src/helpers.js:13-14 | a padding zero in front of a digit string does not change the number it denotes |
| Digits.PadStart | frontend/event-booking-frontend/src/helpers.js:13-14 | `padStart(width, c)`: the length is the larger of the string's length and the width, the string is the suffix, every added character is `c` |
| Js.Or | frontend/event-booking-frontend/src/UserView.js:57-58 | `a \|\| b` is one of its operands, truthy exactly when either is, and is `a` whenever `a` is truthy |
| Js.Slice | frontend/event-booking-frontend/src/AdminView.js:101-102 | `slice(0, n)` is a prefix of length `min(n, len)` |
| Js.IntToString | frontend/event-booking-frontend/src/UserView.js:69 | `${weekOffset}` is non-empty and starts with '-' exactly for negative offsets |
| Api.CategoryIdOf | frontend/event-booking-frontend/src/UserView.js:134 | `slot.category?.id`: the record's id, or undefined for a category sent as a name; stated by `UserView.HighlightIdFallback` and `SlotForm.EditingAListedSlotCannotBeSaved` |
| Api.WeekListRequest | frontend/event-booking-frontend/src/UserView.js:69 | a GET of the slot list whose `week` parameter is the offset's text, with no body |
| Calendar.JsWeekday | frontend/event-booking-frontend/src/helpers.js:3 | `getDay()` is a weekday number below 7 |
| Calendar.DiffToMonday | frontend/event-booking-frontend/src/helpers.js:3-4 | the step back to Monday; stated by `Calendar.StartOfWeekIsTheMonday` |
| Calendar.StartOfWeek | frontend/event-booking-frontend/src/helpers.js:1-9 | the target week's start is a Monday at most six days before today moved by whole weeks |
| Calendar.StartOfWeekIsTheMonday | frontend/event-booking-frontend/src/helpers.js:1-9 | a day is the week start if and only if it is the Monday among the seven days ending on today, moved by whole weeks |
| Calendar.NextWeekIsSevenDaysLater | frontend/event-booking-frontend/src/helpers.js:6 | consecutive week offsets start seven days apart |
| Calendar.JsDate.constructor | frontend/event-booking-frontend/src/helpers.js:5 | `new Date(d)` copies the day and time |
| Calendar.JsDate.ShiftDays | frontend/event-booking-frontend/src/helpers.js:6 | `setDate(getDate() + k)` moves the date by k days and keeps the time |
| Calendar.JsDate.SetMidnight | frontend/event-booking-frontend/src/helpers.js:7 | `setHours(0, 0, 0, 0)` keeps the day and sets the time to midnight |
| Calendar.GetStartOfWeek | frontend/event-booking-frontend/src/helpers.js:1-9 | returns a fresh date at midnight on `StartOfWeek(today, offset)` |
| Calendar.SlotsOn | frontend/event-booking-frontend/src/helpers.js:29-32 | a day's filter keeps exactly the slots whose start parses to that day |
| Calendar.StartsOn | frontend/event-booking-frontend/src/helpers.js:29-32 | the `toDateString()` comparison of a slot's start with one day; stated by `Calendar.WeekBucketMembership` |
| Calendar.Week | frontend/event-booking-frontend/src/helpers.js:20-36 | the seven buckets of the week; stated by `Calendar.GroupSlotsByDay`, `Calendar.WeekPartitionsTheWindow`, `Calendar.WeekBucketMembership` and `Calendar.WeekDates` |
| Calendar.SlotsOnConcat | frontend/event-booking-frontend/src/helpers.js:29-32 | the filter distributes over concatenation, so each bucket keeps the input order |
| Calendar.GroupSlotsByDay | frontend/event-booking-frontend/src/helpers.js:20-37 | the loop builds the seven buckets: bucket i is midnight of Monday+i and the slots starting that day |
| Calendar.SlotsBetweenSplit | frontend/event-booking-frontend/src/helpers.js:24-34 | the slots starting in a span of days are, as a multiset, those starting before its last day plus those starting on it |
| Calendar.DaysFromIsBetween | frontend/event-booking-frontend/src/helpers.js:24-34 | the per-day filters of n consecutive days, concatenated, hold as a multiset exactly the slots starting in those n days |
| Calendar.GatheredWeekIsDaysFrom | frontend/event-booking-frontend/src/helpers.js:24-34 | the first n buckets of a week, in order, are the per-day filters of its first n days |
| Calendar.NoSlotsInEmptySpan | frontend/event-booking-frontend/src/helpers.js:24-34 | no slot starts in an empty span of days |
| Calendar.WeekPartitionsTheWindow | frontend/event-booking-frontend/src/helpers.js:20-37 | the seven buckets together are a permutation of the slots starting from Monday to Sunday |
| Calendar.WeekBucketMembership | frontend/event-booking-frontend/src/helpers.js:24-34 | a slot is in bucket i if and only if it starts on Monday+i; it is in at most one bucket; an unparsable slot, or one outside the week, is in none |
| Calendar.WeekDates | frontend/event-booking-frontend/src/helpers.js:24-28 | the bucket dates are midnight on seven consecutive days from the Monday |
| Calendar.WednesdayInJune2024 | frontend/event-booking-frontend/src/helpers.js:1-37 | on Wednesday 12 June 2024 the week starts on Monday 10 June, and a slot that morning is the whole of Monday's bucket |
| Calendar.PaddedTwoDigits | frontend/event-booking-frontend/src/helpers.js:13-14 | a number below 100, padded to two places, is two digits that read back as the number |
| Calendar.TwoDigits | frontend/event-booking-frontend/src/helpers.js:13-14 | `toString().padStart(2, '0')`; stated by `Calendar.PaddedTwoDigits` |
| Calendar.DayMonthText | frontend/event-booking-frontend/src/helpers.js:13-17 | the `dd.mm` part of the full date; stated by `Calendar.DayMonthTextFields` and `Calendar.DottedPair` |
| Calendar.DottedPair | frontend/event-booking-frontend/src/helpers.js:17 | two two-character fields joined by '.' have the dot at index 2 and each field in its place |
| Calendar.DayMonthTextFields | frontend/event-booking-frontend/src/helpers.js:13-17 | `dd.mm` is five characters: the padded day, a dot, the padded month number (index + 1) |
| Calendar.FormatFullDate | frontend/event-booking-frontend/src/helpers.js:11-18 | the full date text begins with the padded `dd.mm` |
| UserView.ClickRequest | frontend/event-booking-frontend/src/UserView.js:151-169 | Book posts to the slot's book endpoint, Unsubscribe to its unsubscribe endpoint, "Occupied" sends nothing |
| UserView.IsHighlighted | frontend/event-booking-frontend/src/UserView.js:85-86 | `isHighlighted`; stated by `UserView.EmptySelectionHighlightsAll` and `EndToEnd.ToggleReachesTheHighlight` |
| UserView.HighlightId | frontend/event-booking-frontend/src/UserView.js:134 | the id used for highlighting; stated by `UserView.HighlightIdFallback` |
| UserView.SlotColour | frontend/event-booking-frontend/src/UserView.js:128-136 | the colour chain; stated by `UserView.ColourAndControlFollowClassification` and `UserView.NullNameColoursFreeSlotsAsOwn` |
| UserView.SlotControl | frontend/event-booking-frontend/src/UserView.js:151-169 | the control chooser; stated by `UserView.ColourAndControlFollowClassification` |
| UserView.ColourAndControlFollowClassification | frontend/event-booking-frontend/src/UserView.js:128-169 | for a signed-in viewer, green and Unsubscribe exactly on own slots, red and "Occupied" exactly on others' slots, Book on free slots, yellow exactly when highlighted |
| UserView.NullNameColoursFreeSlotsAsOwn | frontend/event-booking-frontend/src/UserView.js:128-160 | before a name is known, a free slot is coloured as the viewer's own yet offered for booking |
| UserView.EmptySelectionHighlightsAll | frontend/event-booking-frontend/src/UserView.js:85-86 | with no category selected every slot is highlighted; otherwise a slot is highlighted if and only if its id is selected |
| UserView.HighlightIdFallback | frontend/event-booking-frontend/src/UserView.js:134 | the highlight uses the category record's id when it is truthy, and `category_id` when the category is a name |
| UserView.IdentityOf | frontend/event-booking-frontend/src/UserView.js:53-60 | the id is `user_id`, or `sub` when `user_id` is falsy; the name is `username`, or `name` when `username` is falsy |
| UserView.UserViewState.constructor | frontend/event-booking-frontend/src/UserView.js:46-51 | the initial state: no selection, no slots, offset 0, loading, id and name null |
| UserView.UserViewState.LoadIdentity | frontend/event-booking-frontend/src/UserView.js:53-60 | with a token the identity becomes the fallbacks' result; without one nothing changes |
| UserView.UserViewState.FetchRequest | frontend/event-booking-frontend/src/UserView.js:66-69 | the slot list is fetched with `week` set to the offset's text |
| UserView.UserViewState.FetchSlots | frontend/event-booking-frontend/src/UserView.js:66-69 | loading starts and the shown week's slot list is requested; nothing else changes |
| UserView.UserViewState.ReceiveSlots | frontend/event-booking-frontend/src/UserView.js:70-74 | success stores the list, failure keeps the old list, loading ends either way |
| UserView.UserViewState.PreviousWeek | frontend/event-booking-frontend/src/UserView.js:62-69 | the offset decreases by one, and the effect refetches: loading starts and the new week's list is requested |
| UserView.UserViewState.NextWeek | frontend/event-booking-frontend/src/UserView.js:62-69 | the offset increases by one, and the effect refetches: loading starts and the new week's list is requested |
| UserView.UserViewState.GroupedDays | frontend/event-booking-frontend/src/UserView.js:88 | the rendered days are the seven buckets of the shown week |
| Preferences.Without | frontend/event-booking-frontend/src/Preferences.js:26 | `filter(i => i !== id)` keeps exactly the other ids and is no longer than its input |
| Preferences.Toggle | frontend/event-booking-frontend/src/Preferences.js:25-27 | `toggleCategory`'s new selection; stated by `Preferences.ToggleFlipsOnlyThatId`, `Preferences.ToggleRemovesOrAppends`, `Preferences.ToggleKeepsTheOthersInOrder` and `Preferences.ToggleTwice` |
| Preferences.WithoutAbsent | frontend/event-booking-frontend/src/Preferences.js:26 | removing an absent id gives back the same list |
| Preferences.WithoutConcat | frontend/event-booking-frontend/src/Preferences.js:26 | removal distributes over concatenation |
| Preferences.LengthOfWithoutPresent | frontend/event-booking-frontend/src/Preferences.js:26 | removing a present id shortens the list |
| Preferences.WithoutIdempotent | frontend/event-booking-frontend/src/Preferences.js:26 | removing twice is removing once |
| Preferences.ToggleFlipsOnlyThatId | frontend/event-booking-frontend/src/Preferences.js:25-27 | toggling flips the id's membership and keeps every other id's membership |
| Preferences.ToggleRemovesOrAppends | frontend/event-booking-frontend/src/Preferences.js:25-27 | a present id leaves (every occurrence, so the list shrinks); an absent id is appended at the end |
| Preferences.ToggleKeepsTheOthersInOrder | frontend/event-booking-frontend/src/Preferences.js:25-27 | apart from the toggled id the list is unchanged: same ids, same order, same repeats |
| Preferences.ToggleTwice | frontend/event-booking-frontend/src/Preferences.js:25-27 | toggling twice restores the set of ids, and the exact list when the id was absent |
| Preferences.IdsOf | frontend/event-booking-frontend/src/Preferences.js:17 | the loaded selection is the categories' ids in their listed order |
| Preferences.Step | frontend/event-booking-frontend/src/Preferences.js:10-21 | one reply handled: a preferences reply ends loading only with a setter; stated by `Preferences.SetterlessPickerNeverLoads` and `Preferences.BoundPickerShowsTheList` |
| Preferences.Shown | frontend/event-booking-frontend/src/Preferences.js:41-57 | the loading message while loading, else the category list; stated by the same two lemmas |
| Preferences.SetterlessPickerNeverLoads | frontend/event-booking-frontend/src/Preferences.js:14-21 | a picker given no `setSelectedIds` (App.js:57) stays loading whatever replies arrive, and shows only "Ładowanie preferencji..." |
| Preferences.LoadedPickerStaysLoaded | frontend/event-booking-frontend/src/Preferences.js:14-21 | a picker with a setter, once loaded, stays loaded |
| Preferences.BoundPickerShowsTheList | frontend/event-booking-frontend/src/Preferences.js:14-21 | a picker with a setter shows its list of categories once the stored preferences have arrived |
| Preferences.PreferencesState.constructor | frontend/event-booking-frontend/src/Preferences.js:6-8 | no categories, loading, attached to the user view whose selection it edits, or to none for the mount in App.js |
| Preferences.PreferencesState.ReceiveCategories | frontend/event-booking-frontend/src/Preferences.js:11-12 | the category list is stored and nothing else changes; this is `Step` on the reply |
| Preferences.PreferencesState.ReceivePreferences | frontend/event-booking-frontend/src/Preferences.js:15-21 | with a parent view, its `selectedCategories` becomes the stored categories' ids, loading ends, and nothing else in it changes; without one the setter call throws and loading stays; this is `Step` on the reply |
| Preferences.PreferencesState.ToggleCategory | frontend/event-booking-frontend/src/Preferences.js:24-39 | for a picker with a parent (only that one renders its list), the user view's `selectedCategories` becomes the toggled one, the PATCH body carries exactly it, and nothing else in the user view changes |
| SlotForm.Payload | frontend/event-booking-frontend/src/AdminView.js:72-76 | the body carries `category_id` from the category input and both times as typed |
| SlotForm.EmptyForm | frontend/event-booking-frontend/src/AdminView.js:9-14 | the empty form; stated by `AdminView.AdminViewState.constructor` and the `ResetForm` methods |
| SlotForm.Complete | frontend/event-booking-frontend/src/AdminView.js:67 | every required field is truthy; stated by `SlotForm.SubmitRequest` |
| SlotForm.SubmitRequest | frontend/event-booking-frontend/src/AdminView.js:63-95 | nothing is sent if and only if a required field is falsy; a truthy id gives PATCH of that slot, otherwise POST to the list; both carry the payload |
| SlotForm.Change | frontend/event-booking-frontend/src/AdminView.js:53-56 | only the named input changes, to the typed text |
| SlotForm.EditForm | frontend/event-booking-frontend/src/AdminView.js:97-106 | as written, the edit form takes the id, `slot.category.id` and the first 16 characters of each time |
| SlotForm.EditingAListedSlotCannotBeSaved | frontend/event-booking-frontend/src/AdminView.js:100 | as written, a slot whose category came as a name loads an undefined category, so saving it sends nothing |
| SlotForm.EditFormCorrected | frontend/event-booking-frontend/src/AdminView.js:97-106 | the corrected edit form takes the category id with the fallback to `category_id` |
| SlotForm.EditThenSaveResendsTheSlot | frontend/event-booking-frontend/src/AdminView.js:63-106 | with the correction, saving an unchanged listed slot sends a PATCH of that slot with its category id and its times to the minute |
| AdminView.AssignRequest | frontend/event-booking-frontend/src/AdminView.js:117-126 | no request if and only if no user is chosen for the slot; otherwise a PATCH of `user_id` |
| AdminView.UnassignRequest | frontend/event-booking-frontend/src/AdminView.js:135-137 | a PATCH with `user_id: null`; stated by `AdminView.AdminViewState.HandleUnassignUser` and `EndToEnd.AssignmentIsAlwaysAFailure` |
| AdminView.RowColourOf | frontend/event-booking-frontend/src/AdminView.js:199-233 | the row colour; stated by `AdminView.RowMatchesHandlers` |
| AdminView.RowControlsOf | frontend/event-booking-frontend/src/AdminView.js:199-233 | the row controls; stated by `AdminView.RowMatchesHandlers` |
| AdminView.RowMatchesHandlers | frontend/event-booking-frontend/src/AdminView.js:199-239 | green exactly with Unassign; on a free slot Assign is enabled exactly when clicking it would send an assignment; the picker shows the choice or '' |
| AdminView.AssignSuccessClearsOnlyThatChoice | frontend/event-booking-frontend/src/AdminView.js:127-130 | after a successful assignment that slot's Assign sends nothing again and every other slot's is unchanged |
| AdminView.AdminViewState.constructor | frontend/event-booking-frontend/src/AdminView.js:9-18 | empty form, no error, offset 0, no choices |
| AdminView.AdminViewState.ResetForm | frontend/event-booking-frontend/src/AdminView.js:58-61 | the form is emptied, the error cleared, nothing else changes |
| AdminView.AdminViewState.HandleChange | frontend/event-booking-frontend/src/AdminView.js:53-56 | the form changes by `SlotForm.Change` and nothing else changes |
| AdminView.AdminViewState.HandleSubmit | frontend/event-booking-frontend/src/AdminView.js:63-95 | sends `SubmitRequest(form)`; incomplete: fill-in message; success: form reset; failure: "Error updating slot." for a PATCH and "Error creating slot." for a POST |
| AdminView.AdminViewState.HandleEdit | frontend/event-booking-frontend/src/AdminView.js:97-106 | the form becomes the corrected edit form and the error is cleared |
| AdminView.AdminViewState.HandleDelete | frontend/event-booking-frontend/src/AdminView.js:108-111 | unconfirmed: nothing; confirmed: DELETE of the slot, and only a failure sets "Error deleting slot." |
| AdminView.AdminViewState.HandleUserSelectChange | frontend/event-booking-frontend/src/AdminView.js:113-115 | only that slot's chosen user changes |
| AdminView.AdminViewState.HandleAssignUser | frontend/event-booking-frontend/src/AdminView.js:117-133 | no choice: "Select a user to assign." and no request; success clears only that slot's choice and the error; failure: "Error assigning user." |
| AdminView.AdminViewState.HandleUnassignUser | frontend/event-booking-frontend/src/AdminView.js:135-140 | always sends `user_id: null`; only a failure changes the state, to "Error unassigning user." |
| AdminView.AdminViewState.PreviousWeek | frontend/event-booking-frontend/src/AdminView.js:27-30 | the offset decreases by one, and for an administrator the effect requests the new week's list; form, error and choices are unchanged |
| AdminView.AdminViewState.NextWeek | frontend/event-booking-frontend/src/AdminView.js:27-30 | the offset increases by one, and for an administrator the effect requests the new week's list; form, error and choices are unchanged |
| AdminView.AdminViewState.FetchRequest | frontend/event-booking-frontend/src/AdminView.js:34-43 | the slot list is fetched with `week` set to the offset's text |
| AdminSlots.AdminSlotsState.constructor | frontend/event-booking-frontend/src/AdminSlots.js:5-14 | no slots, empty form, no error, loading |
| AdminSlots.AdminSlotsState.FetchRequest | frontend/event-booking-frontend/src/AdminSlots.js:22-24 | the whole slot list is fetched, with no week parameter |
| AdminSlots.AdminSlotsState.FetchSlots | frontend/event-booking-frontend/src/AdminSlots.js:22-24 | loading starts and the whole slot list is requested; nothing else changes |
| AdminSlots.AdminSlotsState.ReceiveSlots | frontend/event-booking-frontend/src/AdminSlots.js:25-32 | success stores the list in the order listed, failure keeps the old one, loading ends |
| AdminSlots.AdminSlotsState.ResetForm | frontend/event-booking-frontend/src/AdminSlots.js:46-49 | the form is emptied, the error cleared, nothing else changes |
| AdminSlots.AdminSlotsState.HandleChange | frontend/event-booking-frontend/src/AdminSlots.js:41-44 | the form changes by `SlotForm.Change` and nothing else changes |
| AdminSlots.AdminSlotsState.HandleSubmit | frontend/event-booking-frontend/src/AdminSlots.js:51-89 | sends `SubmitRequest(form)`; the Polish fill-in, update-failed and create-failed messages in the same cases as the week-based panel; a success refetches the list, so loading starts, and resets the form |
| AdminSlots.AdminSlotsState.HandleEdit | frontend/event-booking-frontend/src/AdminSlots.js:91-99 | the form becomes the corrected edit form and the error is cleared |
| AdminSlots.AdminSlotsState.HandleDelete | frontend/event-booking-frontend/src/AdminSlots.js:101-110 | unconfirmed: nothing; confirmed: DELETE of the slot; a success refetches the list, so loading starts, and only a failure sets "Błąd przy usuwaniu slotu." |
| BookingViews.Book | scheduler/views.py:70-81 | 404 for an unknown slot, 400 for any held slot, 200 exactly for a free one, which then becomes the requester's; only success changes the table |
| BookingViews.Unsubscribe | scheduler/views.py:87-98 | 404 for an unknown slot, 403 unless the requester holds it (a free slot included), 200 exactly for the holder, and the slot is freed |
| BookingViews.BookChangesOnlyAFreeSlotsOwner | scheduler/views.py:76-80 | booking keeps every slot's category and times and can only turn the free slot `pk` into the requester's |
| BookingViews.UnsubscribeFreesOnlyTheRequestersSlot | scheduler/views.py:93-97 | unsubscribing keeps every slot's category and times and can only free the requester's own slot `pk` |
| BookingViews.BookThenUnsubscribeRestores | scheduler/views.py:67-98 | booking a free slot and then unsubscribing as the same user restores the original table |
| BookingViews.SecondBookingIsRefused | scheduler/views.py:76-77 | a booked slot refuses a second booking, by anyone, and keeps its holder |
| BookingViews.SlotTable.BookSlot | scheduler/views.py:70-81 | the in-place booking answers and leaves the table exactly as `Book` says |
| BookingViews.SlotTable.UnsubscribeSlot | scheduler/views.py:87-98 | the in-place unsubscription answers and leaves the table exactly as `Unsubscribe` says |
| Accounts.Register | scheduler/views.py:32-48 | 201 if and only if both fields are non-empty, the name as sent and its normal form are both free and the password has no problems; 400 with the first failing check's message (the password's messages as a list); a 500 exactly when only the normal form is taken |
| Accounts.AccountsAfter | scheduler/views.py:47 | the normalised username joins the accounts exactly on 201, and was not there before |
| Accounts.SecondSignUpIsRefused | scheduler/views.py:39-47 | signing up again with a name just registered never creates an account, and is refused as taken when the name is in normal form |
| Accounts.UnnormalisedDuplicateIsAServerError | scheduler/views.py:39-47 | a name whose normal form is stored passes the existence check and ends in a 500 with the accounts unchanged |
| Accounts.AccountStore.SignUp | scheduler/views.py:32-48 | the in-place sign-up answers as `Register` and leaves the accounts as `AccountsAfter`, storing the normalised name |
| SlotViewSet.SerializerFor | scheduler/views.py:106-109 | the slot-writing serializer exactly for create, update and partial_update |
| SlotViewSet.PermissionFor | scheduler/views.py:111-116 | sign-in is required exactly for list and retrieve, staff for every other action |
| SlotViewSet.Refusal | scheduler/views.py:111-116 | anonymous: 401; signed in: allowed for list and retrieve, and for other actions allowed exactly for staff, else 403 |
| SlotViewSet.OnlyStaffWrite | scheduler/views.py:111-116 | any user lists and reads; create, update, partial update and destroy are 403 for non-staff and allowed for staff; anonymous is 401 |
| SlotViewSet.WritingSerializerNeedsStaff | scheduler/views.py:106-116 | the slot-writing serializer only serves staff-only actions |
| SlotViewSet.ParseInt | scheduler/views.py:122-125 | `int(text)` on ASCII text succeeds exactly on an optional sign followed by at most 4300 digits, with the sign of the result following the text |
| SlotViewSet.ParseIntOfIntToString | scheduler/views.py:123 | the client's text for any whole number of at most 4300 digits parses back to that number |
| SlotViewSet.OverlongWeekIsThisWeek | scheduler/views.py:122-125 | a digit string longer than 4300 digits raises `ValueError`, so the offset is 0 and this week is listed |
| SlotViewSet.WeekOffset | scheduler/views.py:120-125 | no parameter: no filtering; an unparsable one: offset 0; otherwise the parsed offset |
| SlotViewSet.PyWeekday | scheduler/views.py:127 | `weekday()` is below 7 |
| SlotViewSet.WindowStart | scheduler/views.py:127-129 | the window's first day; stated by `SlotViewSet.WindowStartsOnTheClientsMonday` |
| SlotViewSet.InWindow | scheduler/views.py:130-131 | the inclusive window filter; stated by `SlotViewSet.WindowIsTheClientWeekPlusOneInstant` and `SlotViewSet.ConsecutiveWindowsShareOneInstant` |
| SlotViewSet.WindowRepresentable | scheduler/views.py:128-130 | whether the window's dates exist; stated by `SlotViewSet.FarWeeksOverflow` and `SlotViewSet.NearWeeksAreListed` |
| SlotViewSet.Queryset | scheduler/views.py:118-132 | without `week` every slot is listed; with it, a server error exactly when the window's dates leave the years 1 to 9999, and otherwise exactly the slots starting in the inclusive window, unchanged |
| SlotViewSet.FarWeeksOverflow | scheduler/views.py:126-129 | for any valid today, an offset of 530000 weeks or more either way, and at most 4300 digits, is a server error |
| SlotViewSet.NearWeeksAreListed | scheduler/views.py:126-131 | for a today at least 7100 days inside the date range, every offset up to 1000 weeks either way is listed |
| SlotViewSet.WindowStartsOnTheClientsMonday | scheduler/views.py:126-128 | for a client in UTC, so sharing the server's today, the server's window starts on the client's `StartOfWeek` for the same offset, a Monday |
| SlotViewSet.WindowIsTheClientWeekPlusOneInstant | scheduler/views.py:129-131 | for a client in UTC, a slot is listed if and only if it starts on one of the client's seven days, or exactly at the next Monday's midnight |
| SlotViewSet.ConsecutiveWindowsShareOneInstant | scheduler/views.py:129-131 | two consecutive windows overlap exactly at the Monday midnight between them |
| SlotViewSet.ClientWeekReachesTheServer | scheduler/views.py:120-125 | the week the client asks for, up to 4300 digits, is the week offset the server filters by |
| Serializers.Represent | scheduler/serializers.py:37-45 | a listed slot carries its category as a name, the id under `category_id`, both times as text, and the holder's username or null |
| Serializers.Validate | scheduler/serializers.py:72-75 | accepted if and only if both times are present and start < end; a missing time is a `KeyError`; otherwise "Start time must be before end time" |
| Serializers.CreateSlot | scheduler/serializers.py:63-75 | a slot is created if and only if all fields are present and valid; it is free and ordered |
| Serializers.PartialUpdate | scheduler/serializers.py:63-75 | saved exactly when the sent data validates, with the sent fields replacing the slot's and the holder kept; a 500 exactly when a time is missing |
| Serializers.SavedSlotsAreOrdered | scheduler/serializers.py:72-75 | every slot the serializer saves starts before it ends |
| Serializers.ValidatedData | scheduler/serializers.py:63-70 | a body without writable keys gives empty data; a slot-fields body gives its three read fields, or a field error when one does not read |
| Serializers.AssignmentFailsOnTheServer | scheduler/serializers.py:72-73 | as written, an assignment body carries no writable field, so `validate` receives empty data and the update is a server error |
| Serializers.PartialUpdateCorrected | scheduler/serializers.py:72-75 | the corrected update validates against the slot's own times for those not sent and sets the holder when `user_id` is sent |
| Serializers.CorrectedAssignmentSetsTheHolder | scheduler/serializers.py:63-75 | with the correction, an assignment on a valid slot changes exactly its holder |
| Serializers.BookingUpdate | scheduler/serializers.py:52-60 | refused, with "Slot is already booked by another user.", if and only if someone else holds the slot; otherwise the requester becomes the holder |
| Serializers.BookingUpdateIsIdempotent | scheduler/serializers.py:55-58 | a second booking through the serializer by the same user succeeds and changes nothing |
| Serializers.SetOf | scheduler/serializers.py:32 | `set(categories)` holds exactly the listed ids |
| Serializers.PreferenceUpdate | scheduler/serializers.py:29-34 | as written, a non-empty list replaces the stored set, and an empty or absent list keeps it |
| Serializers.EmptyListDoesNotClear | scheduler/serializers.py:30-32 | as written, an empty list leaves non-empty preferences in place |
| Serializers.PreferenceUpdateCorrected | scheduler/serializers.py:29-34 | corrected: any list sent, the empty one included, becomes the stored set |
| Serializers.CorrectedUpdateStoresWhatWasSent | scheduler/serializers.py:29-34 | the corrected update stores exactly the ids sent and agrees with the original on non-empty lists |
| Serializers.GetToken | scheduler/serializers.py:82-89 | the token gains `is_staff`, `is_superuser` and `username` from the user and keeps every other claim |
| EndToEnd.TokenNamesTheViewer | frontend/event-booking-frontend/src/UserView.js:58 | the user view's name for the viewer is the `username` the server put in the token |
| EndToEnd.BookedSlotShowsAsOwnToTheBooker | frontend/event-booking-frontend/src/UserView.js:128-169 | a free listed slot offers Book, whose click posts to that slot's book endpoint; once the view books it, the slot is green with Unsubscribe for the booker and red with "Occupied" for anyone else |
| EndToEnd.ListedSlotsAreHighlightedByCategoryId | frontend/event-booking-frontend/src/UserView.js:134 | a listed slot is highlighted exactly when its category id is selected |
| EndToEnd.ToggleReachesTheHighlight | frontend/event-booking-frontend/src/UserView.js:85-97 | toggling a category on highlights its slots, and toggling it off while another stays selected stops highlighting them |
| EndToEnd.LastCategoryCannotBeSwitchedOff | scheduler/serializers.py:29-34 | as written, switching off the only selected category sends [] and the server keeps that category |
| EndToEnd.CorrectedToggleIsStored | frontend/event-booking-frontend/src/Preferences.js:24-33 | with the corrected update, the stored set after a toggle is the toggled selection's set |
| EndToEnd.AssignmentIsAlwaysAFailure | frontend/event-booking-frontend/src/AdminView.js:117-140 | as written, the data `validate` receives from every assignment and unassignment body is empty, so each PATCH ends in a server error |

## Left out

- Rendering, axios, `localStorage`, `window.confirm` and `alert`: the request a handler sends is its result, the reply and the user's confirmation are parameters, and the JWT decoding is a parameter too.
- Refetching after a successful mutation in the week-based panel and after booking in the user view, and the race between overlapping fetches: each of these handlers is modelled as one step, and the fetch that follows is a separate call. The flat panel's handlers return their refetch.
- The loading flags of the administrator panels and the "access denied" screens: these are presentation only.
- BookingViews.Book: two bookings of the same free slot that run at the same time both read it free and both answer 200, and the last save wins. The view takes no lock, and the model treats requests one at a time, so `SecondBookingIsRefused` holds only for requests in sequence.
- Accounts.Register: the database's own comparison of usernames (collation) is taken to be exact equality.
- Fetching the categories and users lists in the panels: each is one GET whose result is stored unchanged.
- Time zones and daylight saving time: the client reading an ISO string into a local day is a parameter, and server instants are plain milliseconds.
- Locale formatting (`toLocaleDateString`, `toLocaleTimeString`, the weekday names): these are passed in as text.
- Calendar.FormatFullDate: the contract states only the padded `dd.mm` prefix, because the weekday name and time that follow come from locale formatting.
- SlotViewSet.ParseInt: it does not accept the surrounding whitespace, underscores between digits or non-ASCII digits that Python's `int` also accepts.
- Serializers.PreferenceUpdate: an id in `categories_ids` that names no category is refused by the field (`PrimaryKeyRelatedField` with a queryset, serializers.py:18-20) with a 400; the model takes every id as a known category.
- `views.py:16` imports `UserSerializer`, which `serializers.py` does not define, so as the files stand the module cannot be imported. The model assumes such a serializer exists; the user list endpoint it would serve is not modelled.
- The `?category=` filter of the slot list, and any ordering of the query set: the source sets no ordering, so the queryset is modelled as a map.
- Serializers.CreateSlot: missing fields are reported with a single message rather than DRF's per-field error object. An unknown category id and an unparsable time, which DRF refuses with 400, are not modelled.
- PUT (`update`) on a slot: it requires every field like create and otherwise behaves like `PartialUpdate`. It is not modelled separately.
- The booking serializer (`TimeSlotBookingSerializer`) is modelled as a function on one slot. No view in the repository uses it.
- Authentication and token signing, expiry and refresh: the requester is given (a username, or none for an anonymous request), and the library's own claims are a parameter of `GetToken`.
- The user, category and preference list and detail endpoints: they are plain DRF generic views with no logic of their own.
- The copies of `getStartOfWeek`, `formatFullDate` and `groupSlotsByDay` in `UserView.js` are the same code as `helpers.js` (apart from the weekday locale). They are modelled once, by the `Calendar` members.
- Whole numbers only: JavaScript numbers are not modelled as floating point.
- The application shell (`App.js`): its login state, token decoding and choice between the user view and the flat panel are not modelled. Only its mount of the picker is, as a picker with no parent view (see Findings).

## Findings

| source | as written | input that shows it | evidently intended | confidence | as-written member | corrected member |
|---|---|---|---|---|---|---|
| frontend/event-booking-frontend/src/AdminView.js:100 | `handleEdit` reads `slot.category.id`, but the slot list renders `category` as the category's name (serializers.py:38). The same code is at AdminSlots.js:94. | any listed slot, e.g. category "Yoga" with `category_id` 3: the form's category is undefined, and Save reports "Please fill out all fields." | take `slot.category?.id \|\| slot.category_id`, as the user view does | not executed; high | SlotForm.EditingAListedSlotCannotBeSaved | SlotForm.EditFormCorrected |
| frontend/event-booking-frontend/src/App.js:57 | `App` mounts the picker with no `selectedIds` or `setSelectedIds`; the preferences reply calls the undefined setter (Preferences.js:18), the `TypeError` lands in the `.catch` (:21), and `setLoading(false)` never runs | any logged-in user: that panel shows "Ładowanie preferencji..." for good; for an administrator it is the only picker on the page | mount the picker with a parent that owns the selection, as the user view does | not executed; high | Preferences.SetterlessPickerNeverLoads | Preferences.BoundPickerShowsTheList |
| scheduler/serializers.py:31 | `if categories:` skips `set()` for an empty list, so preferences can never become empty | stored {1}, selection [1]; the user switches category 1 off, which sends `categories_ids: []`; category 1 stays stored and comes back on the next load | the list sent, empty or not, becomes the stored set | not executed; high | Serializers.EmptyListDoesNotClear | Serializers.PreferenceUpdateCorrected |
| scheduler/serializers.py:73 | `TimeSlotCreateSerializer` has no writable `user_id`, so an assignment PATCH validates empty data, and `data['start_time']` raises `KeyError` | `PATCH /api/slots/1/` with `{"user_id": 5}` from the week-based panel's Assign: a server error, and the panel shows "Error assigning user." | `user_id` sets the holder, and validation falls back to the slot's own times | not executed; medium | Serializers.AssignmentFailsOnTheServer | Serializers.PartialUpdateCorrected |

Two further notes:

- Booking is refused for a slot the requester already holds. The view (`views.py:76`) does this. The unused booking serializer (`serializers.py:55`) instead accepts it again: see `BookingViews.SecondBookingIsRefused` and `Serializers.BookingUpdateIsIdempotent`.
- For a client in UTC, the server's window and the client's buckets differ at one instant, the next Monday's midnight: see `SlotViewSet.WindowIsTheClientWeekPlusOneInstant`. A slot starting then is listed for two weeks, and the client shows it only in the second. A client in another time zone buckets by its local day while the server takes today's UTC date, so around midnight the two can be a whole week apart; the model does not cover that case.

=== FILE: accounts.dfy ===
/**
  Sign-up (`RegisterView.post` in `scheduler/views.py`). Django's password
  validators are a parameter: `passwordProblems(p)` lists the messages
  `validate_password(p)` would raise, empty when the password is accepted.
  `create_user` stores the username after Unicode normalisation (NFKC); the
  normalisation is a parameter too. The account store is the set of stored
  usernames, which the database keeps unique.
*/
module Accounts {
  import opened Wrappers
  import opened Models

  const MissingFields: Response := Response(400, Message("Username and password are required."))
  const UsernameTaken: Response := Response(400, Message("Username already exists."))
  const Created: Response := Response(201, Message("User successfully created."))
  /** The unhandled `IntegrityError` of a duplicate stored username: Django's plain server error page. */
  const DuplicateStored: Response := Response(500, Message("Server Error (500)"))

  /** Python's `not x` for a request field that is absent, null or a string. */
  predicate Blank(field: Option<string>) {
    field.None? || field.value == ""
  }

  /**
    The answer to a sign-up: the first failing check in the order the view
    makes them (both fields present and non-empty, the username as sent not
    yet stored, password accepted), else the account is created. The
    existence check compares the name as sent, but `create_user` stores its
    normalised form: when only that form is taken, the unique constraint
    fails and the request ends in a server error.
  */
  function Register(taken: set<Username>, username: Option<string>, password: Option<string>,
                    passwordProblems: string -> seq<string>, normalize: string -> string): (r: Response)
    ensures r.status == 201 <==>
      !Blank(username) && !Blank(password) && username.value !in taken && passwordProblems(password.value) == []
        && normalize(username.value) !in taken
    ensures r.status == 201 ==> r == Created
    ensures r.status == 500 <==>
      !Blank(username) && !Blank(password) && username.value !in taken && passwordProblems(password.value) == []
        && normalize(username.value) in taken
    ensures r.status == 500 ==> r == DuplicateStored
    ensures r.status in {201, 400, 500}
    ensures Blank(username) || Blank(password) ==> r == MissingFields
    ensures !Blank(username) && !Blank(password) && username.value in taken ==> r == UsernameTaken
    ensures !Blank(username) && !Blank(password) && username.value !in taken && passwordProblems(password.value) != [] ==>
      r == Response(400, Messages(passwordProblems(password.value)))
  {
    if Blank(username) || Blank(password) then MissingFields
    else if username.value in taken then UsernameTaken
    else if passwordProblems(password.value) != [] then Response(400, Messages(passwordProblems(password.value)))
    else if normalize(username.value) in taken then DuplicateStored
    else Created
  }

  /** The accounts after a sign-up: the normalised username is added exactly when the answer is 201. */
  function AccountsAfter(taken: set<Username>, username: Option<string>, password: Option<string>,
                         passwordProblems: string -> seq<string>, normalize: string -> string): (after: set<Username>)
    ensures Register(taken, username, password, passwordProblems, normalize).status == 201 ==>
      username.Some? && after == taken + {normalize(username.value)} && normalize(username.value) !in taken
    ensures Register(taken, username, password, passwordProblems, normalize).status != 201 ==> after == taken
  {
    if Register(taken, username, password, passwordProblems, normalize).status == 201
    then taken + {normalize(username.value)} else taken
  }

  /**
    Signing up twice with the same name: the second attempt never creates a
    second account, whatever its password. It is refused as taken when the
    name is already in normal form, and otherwise ends in a 400 for its
    password or in the server error of the duplicate stored name.
  */
  lemma {:induction false} SecondSignUpIsRefused(taken: set<Username>, username: string, password: string,
                                                  secondPassword: string, passwordProblems: string -> seq<string>,
                                                  normalize: string -> string)
    requires Register(taken, Some(username), Some(password), passwordProblems, normalize) == Created
    requires secondPassword != ""
    ensures var after := AccountsAfter(taken, Some(username), Some(password), passwordProblems, normalize);
      var second := Register(after, Some(username), Some(secondPassword), passwordProblems, normalize);
      && second.status != 201
      && (normalize(username) == username ==> second == UsernameTaken)
  {
    var after := AccountsAfter(taken, Some(username), Some(password), passwordProblems, normalize);
    assert normalize(username) in after;
  }

  /**
    A name sent in a form other than its normal form, when the normal form
    is already stored, passes the existence check and fails only at the
    database: a 500, and no second account.
  */
  lemma UnnormalisedDuplicateIsAServerError(taken: set<Username>, username: string, password: string,
                                             passwordProblems: string -> seq<string>, normalize: string -> string)
    requires username != "" && password != "" && passwordProblems(password) == []
    requires username !in taken && normalize(username) in taken
    ensures Register(taken, Some(username), Some(password), passwordProblems, normalize) == DuplicateStored
    ensures AccountsAfter(taken, Some(username), Some(password), passwordProblems, normalize) == taken
  {
  }

  /** The store of accounts, which `create_user` extends in place. */
  class AccountStore {
    var usernames: set<Username>

    constructor (initial: set<Username>)
      ensures usernames == initial
    {
      usernames := initial;
    }

    /** `RegisterView.post`. */
    method SignUp(username: Option<string>, password: Option<string>, passwordProblems: string -> seq<string>,
                  normalize: string -> string)
      returns (response: Response)
      modifies this
      ensures response == Register(old(usernames), username, password, passwordProblems, normalize)
      ensures usernames == AccountsAfter(old(usernames), username, password, passwordProblems, normalize)
    {
      if username.None? || username.value == "" || password.None? || password.value == "" {
        return MissingFields;
      }
      if username.value in usernames {
        return UsernameTaken;
      }
      var problems := passwordProblems(password.value);
      if problems != [] {
        return Response(400, Messages(problems));
      }
      var stored := normalize(username.value);
      if stored in usernames {
        return DuplicateStored;
      }
      usernames := usernames + {stored};
      response := Created;
    }
  }
}

=== FILE: admin_slots.dfy ===
/**
  The flat administrator panel (`AdminSlots.js`): the same slot form as the
  week-based panel, with its own messages, over the whole slot list in the
  order fetched, with no week offset and no grouping.
*/
module AdminSlots {
  import opened Wrappers
  import Js
  import Api
  import SlotForm

  const FillAllFields: string := "Wypełnij wszystkie pola."
  const UpdateFailed: string := "Błąd przy aktualizacji slotu."
  const CreateFailed: string := "Błąd przy tworzeniu slotu."
  const DeleteFailed: string := "Błąd przy usuwaniu slotu."

  class AdminSlotsState {
    var slots: seq<Api.SlotJson>
    var form: SlotForm.Form
    var error: string
    var loading: bool

    /** The initial state: no slots, empty form, no error, loading. */
    constructor ()
      ensures slots == [] && form == SlotForm.EmptyForm() && error == "" && loading
    {
      slots := [];
      form := SlotForm.EmptyForm();
      error := "";
      loading := true;
    }

    /** The request `fetchSlots` sends: the whole slot list, with no week parameter. */
    function FetchRequest(): (r: Api.Request)
      ensures r.verb == Api.Get && r.endpoint == Api.SlotList(None) && r.body == Api.NoBody
    {
      Api.Request(Api.Get, Api.SlotList(None), Api.NoBody)
    }

    /** `fetchSlots`: loading starts and the whole slot list is requested. */
    method FetchSlots() returns (request: Api.Request)
      modifies this
      ensures loading && request == FetchRequest()
      ensures slots == old(slots) && form == old(form) && error == old(error)
    {
      loading := true;
      request := Api.Request(Api.Get, Api.SlotList(None), Api.NoBody);
    }

    /** A successful fetch stores the list exactly as listed (the rows are rendered in this order); a failed one keeps the old list. */
    method ReceiveSlots(reply: Option<seq<Api.SlotJson>>)
      modifies this
      ensures slots == if reply.Some? then reply.value else old(slots)
      ensures !loading && form == old(form) && error == old(error)
    {
      if reply.Some? {
        slots := reply.value;
      }
      loading := false;
    }

    /** `resetForm`: id null, every field empty, error cleared. */
    method ResetForm()
      modifies this
      ensures form == SlotForm.EmptyForm() && error == ""
      ensures slots == old(slots) && loading == old(loading)
    {
      form := SlotForm.EmptyForm();
      error := "";
    }

    /** `handleChange`: one input edited. */
    method HandleChange(name: SlotForm.FieldName, value: string)
      modifies this
      ensures form == SlotForm.Change(old(form), name, value)
      ensures slots == old(slots) && error == old(error) && loading == old(loading)
    {
      form := SlotForm.Change(form, name, value);
    }

    /**
      `handleSubmit`: an incomplete form sets the fill-in message and sends
      nothing; otherwise the PATCH or POST is sent. A success refetches the
      list (so loading starts) and resets the form; a failure reports which
      of the two failed.
    */
    method HandleSubmit(reply: Api.Reply) returns (request: Option<Api.Request>, refetch: Option<Api.Request>)
      modifies this
      ensures request == SlotForm.SubmitRequest(old(form))
      ensures request.None? ==> error == FillAllFields && form == old(form)
      ensures request.Some? && reply == Api.Succeeded ==> form == SlotForm.EmptyForm() && error == ""
      ensures request.Some? && reply == Api.Failed ==>
        form == old(form) && error == (if Js.Truthy(old(form).id) then UpdateFailed else CreateFailed)
      ensures refetch == if request.Some? && reply == Api.Succeeded then Some(FetchRequest()) else None
      ensures loading == (refetch.Some? || old(loading))
      ensures slots == old(slots)
    {
      refetch := None;
      error := "";
      if !Js.Truthy(form.category) || !Js.Truthy(form.startTime) || !Js.Truthy(form.endTime) {
        error := FillAllFields;
        return None, None;
      }
      var data := Api.SlotFields(form.category, form.startTime, form.endTime);
      if Js.Truthy(form.id) {
        request := Some(Api.Request(Api.Patch, Api.SlotDetail(form.id), data));
        if reply == Api.Succeeded {
          var fetch := FetchSlots();
          refetch := Some(fetch);
          ResetForm();
        } else {
          error := UpdateFailed;
        }
      } else {
        request := Some(Api.Request(Api.Post, Api.SlotList(None), data));
        if reply == Api.Succeeded {
          var fetch := FetchSlots();
          refetch := Some(fetch);
          ResetForm();
        } else {
          error := CreateFailed;
        }
      }
    }

    /**
      `handleEdit(slot)`: the form holds the slot as loaded for editing and
      the error is cleared. The category is taken with the corrected
      fallback to `category_id` (see `SlotForm.EditFormCorrected`).
    */
    method HandleEdit(slot: Api.SlotJson)
      modifies this
      ensures form == SlotForm.EditFormCorrected(slot) && error == ""
      ensures slots == old(slots) && loading == old(loading)
    {
      form := SlotForm.Form(Js.Num(slot.id), Js.Or(Api.CategoryIdOf(slot.category), slot.categoryId),
                            Js.Str(Js.Slice(slot.startTime, 16)), Js.Str(Js.Slice(slot.endTime, 16)));
      error := "";
    }

    /**
      `handleDelete(id)`: nothing happens unless the user confirms; then the
      slot is deleted. A success refetches the list, so loading starts; a
      failure sets its message.
    */
    method HandleDelete(id: int, confirmed: bool, reply: Api.Reply)
      returns (request: Option<Api.Request>, refetch: Option<Api.Request>)
      modifies this
      ensures request == if confirmed then Some(Api.Request(Api.Delete, Api.SlotDetail(Js.Num(id)), Api.NoBody)) else None
      ensures error == if confirmed && reply == Api.Failed then DeleteFailed else old(error)
      ensures refetch == if confirmed && reply == Api.Succeeded then Some(FetchRequest()) else None
      ensures loading == (refetch.Some? || old(loading))
      ensures slots == old(slots) && form == old(form)
    {
      refetch := None;
      if !confirmed {
        return None, None;
      }
      request := Some(Api.Request(Api.Delete, Api.SlotDetail(Js.Num(id)), Api.NoBody));
      if reply == Api.Failed {
        error := DeleteFailed;
      } else {
        var fetch := FetchSlots();
        refetch := Some(fetch);
      }
    }
  }
}

=== FILE: admin_view.dfy ===
/**
  The week-based administrator panel (`AdminView.js`): the slot form, the
  per-slot choice of assignee, assigning and unassigning, and week
  navigation. Each handler is one step: the reply to the request it sends
  is a parameter, and the refetch that follows a success is left out.
*/
module AdminView {
  import opened Wrappers
  import Js
  import Api
  import SlotForm

  const FillAllFields: string := "Please fill out all fields."
  const UpdateFailed: string := "Error updating slot."
  const CreateFailed: string := "Error creating slot."
  const SelectUserFirst: string := "Select a user to assign."
  const AssignFailed: string := "Error assigning user."
  const UnassignFailed: string := "Error unassigning user."
  const DeleteFailed: string := "Error deleting slot."

  /** `selectedUsers[slotId]`: undefined for a slot never chosen for. */
  function Selected(selectedUsers: map<int, Js.Value>, slotId: int): Js.Value {
    if slotId in selectedUsers then selectedUsers[slotId] else Js.Undefined
  }

  /** The assignment `handleAssignUser` sends: none without a chosen user, else a PATCH of `user_id`. */
  function AssignRequest(selectedUsers: map<int, Js.Value>, slotId: int): (r: Option<Api.Request>)
    ensures r.None? <==> !Js.Truthy(Selected(selectedUsers, slotId))
    ensures r.Some? ==> r.value == Api.Request(Api.Patch, Api.SlotDetail(Js.Num(slotId)), Api.Assignee(Selected(selectedUsers, slotId)))
  {
    var userId := Selected(selectedUsers, slotId);
    if !Js.Truthy(userId) then None
    else Some(Api.Request(Api.Patch, Api.SlotDetail(Js.Num(slotId)), Api.Assignee(userId)))
  }

  /** The unassignment `handleUnassignUser` sends: a PATCH with `user_id: null`. */
  function UnassignRequest(slotId: int): Api.Request {
    Api.Request(Api.Patch, Api.SlotDetail(Js.Num(slotId)), Api.Assignee(Js.Null))
  }

  /** The row colour: green for a slot with an owner, none otherwise. */
  datatype RowColour = OwnedGreen | NoColour

  /** The controls of a row: Unassign for an owned slot, or the user picker with an Assign button; Edit always. */
  datatype RowControls = UnassignControls | AssignControls(selectValue: Js.Value, assignEnabled: bool)

  function RowColourOf(slot: Api.SlotJson): RowColour {
    if Js.Truthy(slot.user) then OwnedGreen else NoColour
  }

  function RowControlsOf(slot: Api.SlotJson, selectedUsers: map<int, Js.Value>): RowControls {
    if Js.Truthy(slot.user) then UnassignControls
    else AssignControls(Js.Or(Selected(selectedUsers, slot.id), Js.Str("")),
                        Js.Truthy(Selected(selectedUsers, slot.id)))
  }

  /**
    An owned slot is green and offers Unassign; a free one is uncoloured and
    offers Assign, which is enabled exactly when clicking it would send an
    assignment (the button's `disabled` test and the handler's guard agree).
  */
  lemma RowMatchesHandlers(slot: Api.SlotJson, selectedUsers: map<int, Js.Value>)
    ensures RowColourOf(slot) == OwnedGreen <==> RowControlsOf(slot, selectedUsers) == UnassignControls
    ensures RowControlsOf(slot, selectedUsers).AssignControls? ==>
      (RowControlsOf(slot, selectedUsers).assignEnabled <==> AssignRequest(selectedUsers, slot.id).Some?)
    ensures RowControlsOf(slot, selectedUsers).AssignControls? ==>
      RowControlsOf(slot, selectedUsers).selectValue == (if Js.Truthy(Selected(selectedUsers, slot.id)) then Selected(selectedUsers, slot.id) else Js.Str(""))
  {
  }

  class AdminViewState {
    var form: SlotForm.Form
    var error: string
    var weekOffset: int
    var selectedUsers: map<int, Js.Value>

    /** The initial state: empty form, no error, this week, nobody chosen. */
    constructor ()
      ensures form == SlotForm.EmptyForm() && error == "" && weekOffset == 0 && selectedUsers == map[]
    {
      form := SlotForm.EmptyForm();
      error := "";
      weekOffset := 0;
      selectedUsers := map[];
    }

    /** `resetForm`: id null, every field empty, error cleared. */
    method ResetForm()
      modifies this
      ensures form == SlotForm.EmptyForm() && error == ""
      ensures weekOffset == old(weekOffset) && selectedUsers == old(selectedUsers)
    {
      form := SlotForm.EmptyForm();
      error := "";
    }

    /** `handleChange`: one input edited. */
    method HandleChange(name: SlotForm.FieldName, value: string)
      modifies this
      ensures form == SlotForm.Change(old(form), name, value)
      ensures error == old(error) && weekOffset == old(weekOffset) && selectedUsers == old(selectedUsers)
    {
      form := SlotForm.Change(form, name, value);
    }

    /**
      `handleSubmit`: an incomplete form sets the fill-in message and sends
      nothing; otherwise the PATCH or POST is sent, a success resets the form
      and a failure reports which of the two failed.
    */
    method HandleSubmit(reply: Api.Reply) returns (request: Option<Api.Request>)
      modifies this
      ensures request == SlotForm.SubmitRequest(old(form))
      ensures request.None? ==> error == FillAllFields && form == old(form)
      ensures request.Some? && reply == Api.Succeeded ==> form == SlotForm.EmptyForm() && error == ""
      ensures request.Some? && reply == Api.Failed ==>
        form == old(form) && error == (if Js.Truthy(old(form).id) then UpdateFailed else CreateFailed)
      ensures weekOffset == old(weekOffset) && selectedUsers == old(selectedUsers)
    {
      error := "";
      if !Js.Truthy(form.category) || !Js.Truthy(form.startTime) || !Js.Truthy(form.endTime) {
        error := FillAllFields;
        return None;
      }
      var data := Api.SlotFields(form.category, form.startTime, form.endTime);
      if Js.Truthy(form.id) {
        request := Some(Api.Request(Api.Patch, Api.SlotDetail(form.id), data));
        if reply == Api.Succeeded {
          ResetForm();
        } else {
          error := UpdateFailed;
        }
      } else {
        request := Some(Api.Request(Api.Post, Api.SlotList(None), data));
        if reply == Api.Succeeded {
          ResetForm();
        } else {
          error := CreateFailed;
        }
      }
    }

    /**
      `handleEdit(slot)`: the form holds the slot as loaded for editing and
      the error is cleared. The category is taken with the corrected
      fallback to `category_id` (see `SlotForm.EditFormCorrected`).
    */
    method HandleEdit(slot: Api.SlotJson)
      modifies this
      ensures form == SlotForm.EditFormCorrected(slot) && error == ""
      ensures weekOffset == old(weekOffset) && selectedUsers == old(selectedUsers)
    {
      form := SlotForm.Form(Js.Num(slot.id), Js.Or(Api.CategoryIdOf(slot.category), slot.categoryId),
                            Js.Str(Js.Slice(slot.startTime, 16)), Js.Str(Js.Slice(slot.endTime, 16)));
      error := "";
    }

    /**
      `handleDelete(id)`: nothing happens unless the user confirms; then the
      slot is deleted, and only a failure changes the state, to its message.
    */
    method HandleDelete(id: int, confirmed: bool, reply: Api.Reply) returns (request: Option<Api.Request>)
      modifies this
      ensures request == if confirmed then Some(Api.Request(Api.Delete, Api.SlotDetail(Js.Num(id)), Api.NoBody)) else None
      ensures error == if confirmed && reply == Api.Failed then DeleteFailed else old(error)
      ensures form == old(form) && weekOffset == old(weekOffset) && selectedUsers == old(selectedUsers)
    {
      if !confirmed {
        return None;
      }
      request := Some(Api.Request(Api.Delete, Api.SlotDetail(Js.Num(id)), Api.NoBody));
      if reply == Api.Failed {
        error := DeleteFailed;
      }
    }

    /** `handleUserSelectChange`: only this slot's chosen user changes. */
    method HandleUserSelectChange(slotId: int, userId: Js.Value)
      modifies this
      ensures selectedUsers == old(selectedUsers)[slotId := userId]
      ensures Selected(selectedUsers, slotId) == userId
      ensures forall other :: other != slotId ==> Selected(selectedUsers, other) == Selected(old(selectedUsers), other)
      ensures form == old(form) && error == old(error) && weekOffset == old(weekOffset)
    {
      selectedUsers := selectedUsers[slotId := userId];
    }

    /**
      `handleAssignUser`: with no user chosen, an error and no request;
      otherwise the assignment is sent, and a success clears only this slot's
      choice and the error.
    */
    method HandleAssignUser(slotId: int, reply: Api.Reply) returns (request: Option<Api.Request>)
      modifies this
      ensures request == AssignRequest(old(selectedUsers), slotId)
      ensures request.None? ==> error == SelectUserFirst && selectedUsers == old(selectedUsers)
      ensures request.Some? && reply == Api.Succeeded ==>
        selectedUsers == old(selectedUsers)[slotId := Js.Str("")] && error == ""
      ensures request.Some? && reply == Api.Failed ==>
        selectedUsers == old(selectedUsers) && error == AssignFailed
      ensures form == old(form) && weekOffset == old(weekOffset)
    {
      var userId := if slotId in selectedUsers then selectedUsers[slotId] else Js.Undefined;
      if !Js.Truthy(userId) {
        error := SelectUserFirst;
        return None;
      }
      request := Some(Api.Request(Api.Patch, Api.SlotDetail(Js.Num(slotId)), Api.Assignee(userId)));
      if reply == Api.Succeeded {
        selectedUsers := selectedUsers[slotId := Js.Str("")];
        error := "";
      } else {
        error := AssignFailed;
      }
    }

    /** `handleUnassignUser`: always sends `user_id: null`; only a failure changes the state. */
    method HandleUnassignUser(slotId: int, reply: Api.Reply) returns (request: Api.Request)
      modifies this
      ensures request == UnassignRequest(slotId) && request.body == Api.Assignee(Js.Null)
      ensures error == if reply == Api.Failed then UnassignFailed else old(error)
      ensures form == old(form) && weekOffset == old(weekOffset) && selectedUsers == old(selectedUsers)
    {
      request := Api.Request(Api.Patch, Api.SlotDetail(Js.Num(slotId)), Api.Assignee(Js.Null));
      if reply == Api.Failed {
        error := UnassignFailed;
      }
    }

    /**
      "Previous week": one week back. The effect on `weekOffset` then runs
      `fetchSlots` for the new week, for an administrator only.
    */
    method PreviousWeek(isAdmin: bool) returns (request: Option<Api.Request>)
      modifies this
      ensures weekOffset == old(weekOffset) - 1
      ensures request == if isAdmin then Some(FetchRequest()) else None
      ensures isAdmin ==> request.value.endpoint == Api.SlotList(Some(Js.IntToString(old(weekOffset) - 1)))
      ensures form == old(form) && error == old(error) && selectedUsers == old(selectedUsers)
    {
      weekOffset := weekOffset - 1;
      request := if isAdmin then Some(Api.WeekListRequest(weekOffset)) else None;
    }

    /** "Next week": one week forward, and, for an administrator, the new week's slots are fetched. */
    method NextWeek(isAdmin: bool) returns (request: Option<Api.Request>)
      modifies this
      ensures weekOffset == old(weekOffset) + 1
      ensures request == if isAdmin then Some(FetchRequest()) else None
      ensures isAdmin ==> request.value.endpoint == Api.SlotList(Some(Js.IntToString(old(weekOffset) + 1)))
      ensures form == old(form) && error == old(error) && selectedUsers == old(selectedUsers)
    {
      weekOffset := weekOffset + 1;
      request := if isAdmin then Some(Api.WeekListRequest(weekOffset)) else None;
    }

    /** The request `fetchSlots` sends: the slot list for the shown week offset. */
    function FetchRequest(): (r: Api.Request)
      reads this
      ensures r.verb == Api.Get && r.body == Api.NoBody
      ensures r.endpoint.SlotList? && r.endpoint.week == Some(Js.IntToString(weekOffset))
    {
      Api.WeekListRequest(weekOffset)
    }
  }

  /**
    A successful assignment disables that slot's Assign button again (its
    choice is cleared) and leaves every other slot's button as it was.
  */
  lemma AssignSuccessClearsOnlyThatChoice(selectedUsers: map<int, Js.Value>, slotId: int, other: int)
    requires other != slotId
    ensures AssignRequest(selectedUsers[slotId := Js.Str("")], slotId).None?
    ensures AssignRequest(selectedUsers[slotId := Js.Str("")], other) == AssignRequest(selectedUsers, other)
  {
  }
}

=== FILE: api.dfy ===
/**
  The JSON records the client receives from the REST API and the requests it
  sends, as values. A request is described by its verb, its endpoint and its
  body; sending it is I/O and is not part of the model.
*/
module Api {
  import opened Wrappers
  import Js

  /**
    The `category` field of a slot record. The slot serializer renders the
    category by its name (a plain string); a record with an `id` is the shape
    the client code is also written to accept.
  */
  datatype CategoryRef = Record(id: Js.Value, name: string) | Named(name: string)

  /** `slot.category?.id`: a string has no `id` property, so it reads as undefined. */
  function CategoryIdOf(c: CategoryRef): Js.Value {
    match c
    case Record(id, _) => id
    case Named(_) => Js.Undefined
  }

  /** One slot as the API lists it: id, category, category_id, start and end text, owner name or null. */
  datatype SlotJson = SlotJson(
    id: int,
    category: CategoryRef,
    categoryId: Js.Value,
    startTime: string,
    endTime: string,
    user: Js.Value)

  /** One category as the categories and preferences endpoints list it. */
  datatype CategoryJson = CategoryJson(id: int, name: string)

  datatype Verb = Get | Post | Patch | Delete

  datatype Endpoint =
    | SlotList(week: Option<string>)     // /api/slots/ , with ?week=<text> when present
    | SlotDetail(slotId: Js.Value)       // /api/slots/<id>/
    | SlotBook(bookId: int)              // /api/slots/<id>/book/
    | SlotUnsubscribe(unsubscribeId: int)  // /api/slots/<id>/unsubscribe/
    | PreferenceDetail                   // /api/preferences/

  datatype Body =
    | NoBody
    | SlotFields(categoryId: Js.Value, startTime: Js.Value, endTime: Js.Value)
    | Assignee(userId: Js.Value)
    | CategoryIds(ids: seq<int>)

  datatype Request = Request(verb: Verb, endpoint: Endpoint, body: Body)

  /** `axios.get(`/api/slots/?week=${weekOffset}`)`, the week-based fetch both calendar views send. */
  function WeekListRequest(weekOffset: int): (r: Request)
    ensures r.verb == Get && r.body == NoBody
    ensures r.endpoint.SlotList? && r.endpoint.week == Some(Js.IntToString(weekOffset))
  {
    Request(Get, SlotList(Some(Js.IntToString(weekOffset))), NoBody)
  }

  /** How the server answered a request the client sent: the client only looks at success or failure. */
  datatype Reply = Succeeded | Failed
}

=== FILE: base.dfy ===
/** Option, the absence of a value, shared by every module of the model. */
module Wrappers {
  datatype Option<+T> = None | Some(value: T)
}

/**
  Decimal digit strings: the text form of whole numbers used by JavaScript's
  `Number.prototype.toString`, by `String.prototype.padStart` on such strings,
  and by Python's `int(str)` on the server.
*/
module Digits {

  predicate IsDigit(c: char) {
    '0' <= c <= '9'
  }

  predicate AllDigits(s: string) {
    forall i :: 0 <= i < |s| ==> IsDigit(s[i])
  }

  function DigitChar(d: nat): (c: char)
    requires d < 10
    ensures IsDigit(c) && c as int - '0' as int == d
  {
    ('0' as int + d) as char
  }

  function DigitValue(c: char): nat
    requires IsDigit(c)
  {
    c as int - '0' as int
  }

  /** The number a string of decimal digits denotes (leading zeros allowed). */
  function Value(s: string): nat
    requires AllDigits(s)
  {
    if s == [] then 0 else Value(s[..|s| - 1]) * 10 + DigitValue(s[|s| - 1])
  }

  /** The shortest decimal text of a natural number, as `n.toString()` gives it. */
  function NatToString(n: nat): (s: string)
    ensures 1 <= |s| && AllDigits(s)
    ensures n < 10 <==> |s| == 1
    ensures |s| > 1 ==> s[0] != '0'
  {
    if n < 10 then [DigitChar(n)] else NatToString(n / 10) + [DigitChar(n % 10)]
  }

  function Pow10(d: nat): (p: nat)
    ensures p >= 1
  {
    if d == 0 then 1 else 10 * Pow10(d - 1)
  }

  /** A number below 10^d is written with at most d digits. */
  lemma {:induction false} NatToStringLength(n: nat, d: nat)
    requires 1 <= d && n < Pow10(d)
    ensures |NatToString(n)| <= d
  {
    if n >= 10 {
      var e: nat := d - 1;
      assert Pow10(d) == 10 * Pow10(e);
      NatToStringLength(n / 10, e);
    }
  }

  /** Reading back the text of a number gives the number. */
  lemma {:induction false} ValueOfNatToString(n: nat)
    ensures Value(NatToString(n)) == n
  {
    var s := NatToString(n);
    if n >= 10 {
      assert s[..|s| - 1] == NatToString(n / 10);
      ValueOfNatToString(n / 10);
    }
  }

  /** Leading zeros do not change the value of a digit string. */
  lemma {:induction false} ValueIgnoresLeadingZero(s: string)
    requires AllDigits(s)
    ensures AllDigits("0" + s) && Value("0" + s) == Value(s)
  {
    var t := "0" + s;
    assert AllDigits(t) by {
      forall i | 0 <= i < |t| ensures IsDigit(t[i]) {
        if i > 0 { assert t[i] == s[i - 1]; }
      }
    }
    if s != [] {
      assert t[..|t| - 1] == "0" + s[..|s| - 1];
      ValueIgnoresLeadingZero(s[..|s| - 1]);
    } else {
      assert t[..|t| - 1] == [];
    }
  }

  /** `s.padStart(width, c)`: `s` preceded by enough copies of `c` to reach `width`. */
  function PadStart(s: string, width: nat, c: char): (r: string)
    ensures |r| == if |s| >= width then |s| else width
    ensures r[|r| - |s|..] == s
    ensures forall i :: 0 <= i < |r| - |s| ==> r[i] == c
  {
    if |s| >= width then s else seq(width - |s|, _ => c) + s
  }
}

/**
  The few pieces of JavaScript value semantics the client code depends on:
  truthiness (`if (x)`, `!x`), the `||` fallback and `slice`. JSON and the
  client's state hold only these kinds of value; numbers are whole numbers
  here. Strict equality `===` on these values is plain equality.
*/
module Js {
  import Digits

  datatype Value = Undefined | Null | Bool(b: bool) | Num(n: int) | Str(s: string)

  /** false, 0, "", null and undefined are falsy; every other value is truthy. */
  predicate Truthy(v: Value) {
    match v
    case Undefined => false
    case Null => false
    case Bool(b) => b
    case Num(n) => n != 0
    case Str(s) => s != ""
  }

  /** `a || b`: the first truthy operand, or the second operand when neither is. */
  function Or(a: Value, b: Value): (r: Value)
    ensures r == a || r == b
    ensures Truthy(r) <==> Truthy(a) || Truthy(b)
    ensures Truthy(a) ==> r == a
  {
    if Truthy(a) then a else b
  }

  /** `s.slice(0, n)` for n >= 0: the first n characters, or all of a shorter string. */
  function Slice(s: string, n: nat): (r: string)
    ensures |r| == if |s| <= n then |s| else n
    ensures r <= s
  {
    if |s| <= n then s else s[..n]
  }

  /** The text of a whole number, as a template literal `${k}` renders it. */
  function IntToString(k: int): (s: string)
    ensures 1 <= |s|
    ensures k < 0 <==> s[0] == '-'
  {
    if k < 0 then "-" + Digits.NatToString(-k) else Digits.NatToString(k)
  }
}

=== FILE: booking.dfy ===
/**
  Booking and unsubscribing (`TimeSlotBookView.post` and
  `TimeSlotUnsubscribeView.post` in `scheduler/views.py`) over the slot
  table. The requester is the authenticated user; the authentication check
  that precedes both views is left out.
*/
module BookingViews {
  import opened Wrappers
  import opened Models

  const SlotNotFound: Response := Response(404, Message("Slot not found."))
  const SlotTaken: Response := Response(400, Message("Slot already taken."))
  const Booked: Response := Response(200, Message("Successfully booked."))
  const NotSubscribed: Response := Response(403, Message("You are not subscribed to this slot."))
  const Unsubscribed: Response := Response(200, Message("Unsubscribed."))

  /** A view's answer together with the slot table it leaves behind. */
  datatype Outcome = Outcome(response: Response, slots: map<SlotId, TimeSlot>)

  /**
    Booking slot `pk`: an unknown id is 404, a slot with any owner (the
    requester included) is 400, and only a free slot is booked, for the
    requester, with 200. Only a success changes the table, and then only the
    owner of that one slot.
  */
  function Book(slots: map<SlotId, TimeSlot>, pk: SlotId, requester: Username): (o: Outcome)
    ensures pk !in slots ==> o == Outcome(SlotNotFound, slots)
    ensures pk in slots && slots[pk].user.Some? ==> o == Outcome(SlotTaken, slots)
    ensures o.response.status == 200 <==> pk in slots && slots[pk].user.None?
    ensures o.response.status == 200 ==>
      o.response == Booked && o.slots == slots[pk := slots[pk].(user := Some(requester))]
  {
    if pk !in slots then Outcome(SlotNotFound, slots)
    else if slots[pk].user.Some? then Outcome(SlotTaken, slots)
    else Outcome(Booked, slots[pk := slots[pk].(user := Some(requester))])
  }

  /**
    Unsubscribing from slot `pk`: an unknown id is 404; unless the requester
    holds the slot (a free slot included) it is 403; the holder frees it with
    200. Only a success changes the table.
  */
  function Unsubscribe(slots: map<SlotId, TimeSlot>, pk: SlotId, requester: Username): (o: Outcome)
    ensures pk !in slots ==> o == Outcome(SlotNotFound, slots)
    ensures pk in slots && slots[pk].user != Some(requester) ==> o == Outcome(NotSubscribed, slots)
    ensures o.response.status == 200 <==> pk in slots && slots[pk].user == Some(requester)
    ensures o.response.status == 200 ==>
      o.response == Unsubscribed && o.slots == slots[pk := slots[pk].(user := None)]
  {
    if pk !in slots then Outcome(SlotNotFound, slots)
    else if slots[pk].user != Some(requester) then Outcome(NotSubscribed, slots)
    else Outcome(Unsubscribed, slots[pk := slots[pk].(user := None)])
  }

  /**
    A booking never takes a slot from its holder, never touches another
    slot, and keeps every slot's category and times: the only change it can
    make is a free slot `pk` becoming the requester's.
  */
  lemma BookChangesOnlyAFreeSlotsOwner(slots: map<SlotId, TimeSlot>, pk: SlotId, requester: Username)
    ensures Book(slots, pk, requester).slots.Keys == slots.Keys
    ensures forall k :: k in slots ==>
      var after := Book(slots, pk, requester).slots[k];
      && after.category == slots[k].category
      && after.startTime == slots[k].startTime && after.endTime == slots[k].endTime
      && (after.user == slots[k].user || (k == pk && slots[k].user.None? && after.user == Some(requester)))
  {
  }

  /**
    An unsubscription never frees a slot somebody else holds: the only
    change it can make is the requester's own slot `pk` becoming free.
  */
  lemma UnsubscribeFreesOnlyTheRequestersSlot(slots: map<SlotId, TimeSlot>, pk: SlotId, requester: Username)
    ensures Unsubscribe(slots, pk, requester).slots.Keys == slots.Keys
    ensures forall k :: k in slots ==>
      var after := Unsubscribe(slots, pk, requester).slots[k];
      && after.category == slots[k].category
      && after.startTime == slots[k].startTime && after.endTime == slots[k].endTime
      && (after.user == slots[k].user || (k == pk && slots[k].user == Some(requester) && after.user.None?))
  {
  }

  /** Booking a free slot and then unsubscribing as the same user gives back the original table. */
  lemma {:induction false} BookThenUnsubscribeRestores(slots: map<SlotId, TimeSlot>, pk: SlotId, requester: Username)
    requires pk in slots && slots[pk].user.None?
    ensures Book(slots, pk, requester).response == Booked
    ensures Unsubscribe(Book(slots, pk, requester).slots, pk, requester) == Outcome(Unsubscribed, slots)
  {
    var booked := Book(slots, pk, requester).slots;
    assert booked[pk].user == Some(requester);
    var freed := Unsubscribe(booked, pk, requester).slots;
    assert freed == booked[pk := booked[pk].(user := None)];
    assert freed[pk] == slots[pk];
    assert freed == slots;
  }

  /** Booking twice fails the second time, even for the same user, and leaves the first booking. */
  lemma SecondBookingIsRefused(slots: map<SlotId, TimeSlot>, pk: SlotId, first: Username, second: Username)
    requires pk in slots && slots[pk].user.None?
    ensures var once := Book(slots, pk, first).slots;
      Book(once, pk, second) == Outcome(SlotTaken, once) && once[pk].user == Some(first)
  {
  }

  /** The slot table, which both views change in place (`slot.user = ...; slot.save()`). */
  class SlotTable {
    var slots: map<SlotId, TimeSlot>

    constructor (initial: map<SlotId, TimeSlot>)
      ensures slots == initial
    {
      slots := initial;
    }

    /** `TimeSlotBookView.post`. */
    method BookSlot(pk: SlotId, requester: Username) returns (response: Response)
      modifies this
      ensures Outcome(response, slots) == Book(old(slots), pk, requester)
    {
      if pk !in slots {
        return SlotNotFound;
      }
      var slot := slots[pk];
      if slot.user.Some? {
        return SlotTaken;
      }
      slot := slot.(user := Some(requester));
      slots := slots[pk := slot];
      response := Booked;
    }

    /** `TimeSlotUnsubscribeView.post`. */
    method UnsubscribeSlot(pk: SlotId, requester: Username) returns (response: Response)
      modifies this
      ensures Outcome(response, slots) == Unsubscribe(old(slots), pk, requester)
    {
      if pk !in slots {
        return SlotNotFound;
      }
      var slot := slots[pk];
      if slot.user != Some(requester) {
        return NotSubscribed;
      }
      slot := slot.(user := None);
      slots := slots[pk := slot];
      response := Unsubscribed;
    }
  }
}

=== FILE: calendar.dfy ===
/**
  The weekly calendar projection of the client (`helpers.js`, repeated
  verbatim in `UserView.js`): the Monday that starts the displayed week, and
  the seven Monday-to-Sunday day buckets of slots.

  Dates are local calendar days numbered from day 0, Thursday 1 January 1970;
  a moment is a day number plus the millisecond within that day. "Now" and
  the reading of a slot's ISO start text as a local moment (`new Date(text)`,
  which depends on the time zone) are parameters.
*/
module Calendar {
  import opened Wrappers
  import Api
  import Digits
  import Models

  /** A time of day: milliseconds since midnight. */
  type Millis = m: nat | m < Models.MillisPerDay

  datatype Moment = Moment(day: int, millis: Millis)

  /** `Date.prototype.getDay`: 0 for Sunday, 1 for Monday, ..., 6 for Saturday. */
  function JsWeekday(day: int): (w: nat)
    ensures w < 7
  {
    (day + 4) % 7
  }

  /** Days from a day with the given weekday back to the Monday of its week. */
  function DiffToMonday(weekday: nat): int
    requires weekday < 7
  {
    if weekday == 0 then -6 else 1 - weekday
  }

  /**
    The day number of `getStartOfWeek(weekOffset)` when today is `today`: the
    Monday of the current week moved by whole weeks.
  */
  function StartOfWeek(today: int, weekOffset: int): (monday: int)
    ensures JsWeekday(monday) == 1
    ensures today + 7 * weekOffset - 6 <= monday <= today + 7 * weekOffset
  {
    today + DiffToMonday(JsWeekday(today)) + weekOffset * 7
  }

  /**
    The week start is exactly the Monday among the seven days ending on today
    (moved by whole weeks): it is the only Monday in that span.
  */
  lemma {:induction false} StartOfWeekIsTheMonday(today: int, weekOffset: int, m: int)
    ensures m == StartOfWeek(today, weekOffset)
        <==> JsWeekday(m) == 1 && today + 7 * weekOffset - 6 <= m <= today + 7 * weekOffset
  {
    var s := StartOfWeek(today, weekOffset);
    if JsWeekday(m) == 1 && today + 7 * weekOffset - 6 <= m <= today + 7 * weekOffset {
      var q, r := (m + 4) / 7, (s + 4) / 7;
      assert m + 4 == 7 * q + 1;
      assert s + 4 == 7 * r + 1;
      assert -6 <= m - s <= 6;
      assert m - s == 7 * (q - r);
      assert q == r;
    }
  }

  /** Consecutive week offsets give Mondays exactly seven days apart. */
  lemma NextWeekIsSevenDaysLater(today: int, weekOffset: int)
    ensures StartOfWeek(today, weekOffset + 1) == StartOfWeek(today, weekOffset) + 7
  {
  }

  /** A JavaScript `Date` in local time, as `getStartOfWeek` and `groupSlotsByDay` mutate it. */
  class JsDate {
    var day: int
    var millis: Millis

    /** `new Date(m)`: a fresh copy. */
    constructor (m: Moment)
      ensures day == m.day && millis == m.millis
    {
      day := m.day;
      millis := m.millis;
    }

    function Value(): Moment
      reads this
    {
      Moment(day, millis)
    }

    /**
      `d.setDate(d.getDate() + k)` on a copy of the date whose `getDate()` is
      read: the same time of day k whole days later, rolling over months and
      years.
    */
    method ShiftDays(k: int)
      modifies this
      ensures day == old(day) + k && millis == old(millis)
    {
      day := day + k;
    }

    /** `d.setHours(0, 0, 0, 0)`. */
    method SetMidnight()
      modifies this
      ensures day == old(day) && millis == 0
    {
      millis := 0;
    }
  }

  /** `getStartOfWeek(weekOffset)` with "now" as a parameter: midnight on the Monday of the target week. */
  method GetStartOfWeek(now: Moment, weekOffset: int) returns (monday: JsDate)
    ensures fresh(monday)
    ensures monday.Value() == Moment(StartOfWeek(now.day, weekOffset), 0)
  {
    var day: int := JsWeekday(now.day);
    var diffToMonday := if day == 0 then -6 else 1 - day;
    monday := new JsDate(now);
    monday.ShiftDays(diffToMonday + weekOffset * 7);
    monday.SetMidnight();
  }

  /** One entry of the result of `groupSlotsByDay`: the day's date (at midnight) and its slots. */
  datatype DayBucket = DayBucket(date: Moment, slots: seq<Api.SlotJson>)

  /**
    The `toDateString()` comparison: the slot's start text reads as a valid
    local moment on the given calendar day. An unreadable start gives an
    "Invalid Date", whose text matches no day.
  */
  predicate StartsOn(s: Api.SlotJson, parse: string -> Option<Moment>, day: int) {
    parse(s.startTime).Some? && parse(s.startTime).value.day == day
  }

  /** `slots.filter(...)` for one day: the slots starting on `day`, in input order. */
  function SlotsOn(slots: seq<Api.SlotJson>, parse: string -> Option<Moment>, day: int): (r: seq<Api.SlotJson>)
    ensures forall s :: s in r <==> s in slots && StartsOn(s, parse, day)
    ensures |r| <= |slots|
  {
    if slots == [] then []
    else (if StartsOn(slots[0], parse, day) then [slots[0]] else []) + SlotsOn(slots[1..], parse, day)
  }

  /** Filtering distributes over concatenation: a bucket keeps the relative order of the input. */
  lemma {:induction false} SlotsOnConcat(a: seq<Api.SlotJson>, b: seq<Api.SlotJson>, parse: string -> Option<Moment>, day: int)
    ensures SlotsOn(a + b, parse, day) == SlotsOn(a, parse, day) + SlotsOn(b, parse, day)
  {
    if a != [] {
      assert (a + b)[1..] == a[1..] + b;
      SlotsOnConcat(a[1..], b, parse, day);
    } else {
      assert a + b == b;
    }
  }

  /** The seven buckets `groupSlotsByDay` builds for the week starting on day `monday`. */
  function Week(slots: seq<Api.SlotJson>, parse: string -> Option<Moment>, monday: int): seq<DayBucket> {
    seq(7, i => DayBucket(Moment(monday + i, 0), SlotsOn(slots, parse, monday + i)))
  }

  /**
    `groupSlotsByDay(slots, weekOffset)` with "now" as a parameter: exactly
    seven buckets, Monday to Sunday of the target week, each holding the slots
    that start on its day.
  */
  method GroupSlotsByDay(slots: seq<Api.SlotJson>, parse: string -> Option<Moment>, now: Moment, weekOffset: int)
    returns (days: seq<DayBucket>)
    ensures days == Week(slots, parse, StartOfWeek(now.day, weekOffset))
  {
    var startOfWeek := GetStartOfWeek(now, weekOffset);
    ghost var monday := StartOfWeek(now.day, weekOffset);
    days := [];
    for i := 0 to 7
      invariant startOfWeek.Value() == Moment(monday, 0)
      invariant days == Week(slots, parse, monday)[..i]
    {
      var dayDate := new JsDate(startOfWeek.Value());
      dayDate.ShiftDays(i);
      days := days + [DayBucket(dayDate.Value(), SlotsOn(slots, parse, dayDate.day))];
    }
  }

  /** The slots starting on a day in [lo, hi), in input order. */
  function SlotsBetween(slots: seq<Api.SlotJson>, parse: string -> Option<Moment>, lo: int, hi: int): seq<Api.SlotJson> {
    if slots == [] then []
    else
      (if parse(slots[0].startTime).Some? && lo <= parse(slots[0].startTime).value.day < hi
       then [slots[0]] else [])
      + SlotsBetween(slots[1..], parse, lo, hi)
  }

  /** The slots of the first n buckets, bucket after bucket. */
  function Gathered(week: seq<DayBucket>, n: nat): seq<Api.SlotJson>
    requires n <= |week|
  {
    if n == 0 then [] else Gathered(week, n - 1) + week[n - 1].slots
  }

  /** Splitting the day span [lo, next) at its last day hi = next - 1 splits the slots starting in it. */
  lemma {:induction false} SlotsBetweenSplit(slots: seq<Api.SlotJson>, parse: string -> Option<Moment>, lo: int, hi: int, next: int)
    requires lo <= hi && next == hi + 1
    ensures multiset(SlotsBetween(slots, parse, lo, next))
         == multiset(SlotsBetween(slots, parse, lo, hi)) + multiset(SlotsOn(slots, parse, hi))
  {
    if slots != [] {
      SlotsBetweenSplit(slots[1..], parse, lo, hi, next);
    }
  }

  /** The slots of days monday .. monday + n - 1, day after day. */
  function DaysFrom(slots: seq<Api.SlotJson>, parse: string -> Option<Moment>, monday: int, n: nat): seq<Api.SlotJson> {
    if n == 0 then [] else DaysFrom(slots, parse, monday, n - 1) + SlotsOn(slots, parse, monday + (n - 1))
  }

  /** One more day at the end: the slots of the first n days are those of the first n - 1, then day n - 1's. */
  lemma DaysFromStep(slots: seq<Api.SlotJson>, parse: string -> Option<Moment>, monday: int, n: nat, m: nat, last: int)
    requires n == m + 1 && last == monday + m
    ensures DaysFrom(slots, parse, monday, n) == DaysFrom(slots, parse, monday, m) + SlotsOn(slots, parse, last)
  {
  }

  /** The slots of days monday .. end - 1, day after day, are those starting in [monday, end), each occurrence once. */
  lemma {:induction false} DaysFromIsBetween(slots: seq<Api.SlotJson>, parse: string -> Option<Moment>, monday: int, n: nat, end: int)
    requires end == monday + n
    ensures multiset(DaysFrom(slots, parse, monday, n)) == multiset(SlotsBetween(slots, parse, monday, end))
  {
    if n == 0 {
      NoSlotsInEmptySpan(slots, parse, monday);
    } else {
      var m: nat := n - 1;
      var last := monday + m;
      DaysFromStep(slots, parse, monday, n, m, last);
      DaysFromIsBetween(slots, parse, monday, m, last);
      SlotsBetweenSplit(slots, parse, monday, last, end);
    }
  }

  /** The first n buckets of a week, taken in order, hold the slots of its first n days, day after day. */
  lemma {:induction false} GatheredWeekIsDaysFrom(slots: seq<Api.SlotJson>, parse: string -> Option<Moment>, monday: int, n: nat)
    requires n <= 7
    ensures Gathered(Week(slots, parse, monday), n) == DaysFrom(slots, parse, monday, n)
  {
    if n > 0 {
      GatheredWeekIsDaysFrom(slots, parse, monday, n - 1);
      assert Week(slots, parse, monday)[n - 1].slots == SlotsOn(slots, parse, monday + (n - 1));
    }
  }

  /** The seven buckets of `Week`, one by one. */
  lemma WeekBuckets(slots: seq<Api.SlotJson>, parse: string -> Option<Moment>, monday: int)
    ensures |Week(slots, parse, monday)| == 7
    ensures forall i :: 0 <= i < 7 ==>
      Week(slots, parse, monday)[i] == DayBucket(Moment(monday + i, 0), SlotsOn(slots, parse, monday + i))
  {
  }

  lemma {:induction false} NoSlotsInEmptySpan(slots: seq<Api.SlotJson>, parse: string -> Option<Moment>, day: int)
    ensures SlotsBetween(slots, parse, day, day) == []
  {
    if slots != [] {
      NoSlotsInEmptySpan(slots[1..], parse, day);
    }
  }

  /**
    Taken together, the seven buckets hold exactly the input slots that start
    within the week, each occurrence once: none dropped, none repeated.
  */
  lemma WeekPartitionsTheWindow(slots: seq<Api.SlotJson>, parse: string -> Option<Moment>, monday: int)
    ensures multiset(Gathered(Week(slots, parse, monday), 7)) == multiset(SlotsBetween(slots, parse, monday, monday + 7))
  {
    GatheredWeekIsDaysFrom(slots, parse, monday, 7);
    DaysFromIsBetween(slots, parse, monday, 7, monday + 7);
  }

  /**
    Bucket i holds a slot exactly when the slot is in the input and starts on
    Monday + i; so a slot is in at most one bucket, and a slot starting outside
    the week (or with an unreadable start) is in none.
  */
  lemma WeekBucketMembership(slots: seq<Api.SlotJson>, parse: string -> Option<Moment>, monday: int, s: Api.SlotJson)
    ensures forall i :: 0 <= i < 7 ==>
      (s in Week(slots, parse, monday)[i].slots <==> s in slots && StartsOn(s, parse, monday + i))
    ensures forall i, j :: 0 <= i < j < 7 && s in Week(slots, parse, monday)[i].slots ==>
      s !in Week(slots, parse, monday)[j].slots
    ensures (parse(s.startTime).None? || !(monday <= parse(s.startTime).value.day < monday + 7)) ==>
      forall i :: 0 <= i < 7 ==> s !in Week(slots, parse, monday)[i].slots
  {
    WeekBuckets(slots, parse, monday);
  }

  /** The buckets' dates are midnight on seven consecutive days starting with `monday`. */
  lemma WeekDates(slots: seq<Api.SlotJson>, parse: string -> Option<Moment>, monday: int)
    ensures |Week(slots, parse, monday)| == 7
    ensures Week(slots, parse, monday)[0].date == Moment(monday, 0)
    ensures forall i :: 0 < i < 7 ==>
      Week(slots, parse, monday)[i].date.day == Week(slots, parse, monday)[i - 1].date.day + 1
    ensures forall i :: 0 <= i < 7 ==> Week(slots, parse, monday)[i].date.millis == 0
  {
  }

  /**
    A worked week: today is Wednesday 12 June 2024 (day 19886) and the only
    slot starts at 09:00 on Monday 10 June (day 19884). The week starts on
    that Monday, its bucket holds the slot and the other six are empty.
  */
  lemma WednesdayInJune2024(s: Api.SlotJson, parse: string -> Option<Moment>)
    requires parse(s.startTime) == Some(Moment(19884, 9 * 3600000))
    ensures StartOfWeek(19886, 0) == 19884
    ensures Week([s], parse, StartOfWeek(19886, 0))[0].slots == [s]
    ensures forall i :: 1 <= i < 7 ==> Week([s], parse, StartOfWeek(19886, 0))[i].slots == []
  {
    assert JsWeekday(19886) == 3;
  }

  /** `n.toString().padStart(2, '0')`. */
  function TwoDigits(n: nat): string {
    Digits.PadStart(Digits.NatToString(n), 2, '0')
  }

  /** The `${day}.${month}` part of `formatFullDate`: day of month and month number, each padded to two digits. */
  function DayMonthText(dayOfMonth: nat, monthIndex: nat): string {
    TwoDigits(dayOfMonth) + "." + TwoDigits(monthIndex + 1)
  }

  /**
    For any day of month (1..31) and month index (`getMonth()`, 0..11) the
    text is two characters, a dot and two characters: the padded day and the
    padded month number `getMonth() + 1` (see PaddedTwoDigits).
  */
  lemma {:induction false} DayMonthTextFields(dayOfMonth: nat, monthIndex: nat)
    requires 1 <= dayOfMonth <= 31 && monthIndex <= 11
    ensures |DayMonthText(dayOfMonth, monthIndex)| == 5
    ensures DayMonthText(dayOfMonth, monthIndex)[2] == '.'
    ensures DayMonthText(dayOfMonth, monthIndex)[..2] == TwoDigits(dayOfMonth)
    ensures DayMonthText(dayOfMonth, monthIndex)[3..] == TwoDigits(monthIndex + 1)
  {
    PaddedTwoDigits(dayOfMonth);
    PaddedTwoDigits(monthIndex + 1);
    DottedPair(TwoDigits(dayOfMonth), TwoDigits(monthIndex + 1));
  }

  lemma DottedPair(a: string, b: string)
    requires |a| == 2 && |b| == 2
    ensures |a + "." + b| == 5 && (a + "." + b)[2] == '.'
    ensures (a + "." + b)[..2] == a && (a + "." + b)[3..] == b
  {
    var t := a + "." + b;
    assert t[..2] == a;
    assert t[3..] == b;
  }

  /** A number below 100 padded to width 2 is two digits that read back as the number. */
  lemma PaddedTwoDigits(n: nat)
    requires n < 100
    ensures |TwoDigits(n)| == 2
    ensures Digits.AllDigits(TwoDigits(n))
    ensures Digits.Value(TwoDigits(n)) == n
  {
    var s := Digits.NatToString(n);
    Digits.ValueOfNatToString(n);
    if n < 10 {
      assert TwoDigits(n) == "0" + s;
      Digits.ValueIgnoresLeadingZero(s);
    } else {
      assert n / 10 < 10;
      assert |s| == 2;
    }
  }

  /**
    `formatFullDate(date)`: the padded day and month, then the weekday name
    and the time, which are locale-formatted text passed in as they are.
  */
  function FormatFullDate(dayOfMonth: nat, monthIndex: nat, weekdayName: string, time: string): (r: string)
    ensures DayMonthText(dayOfMonth, monthIndex) <= r
  {
    DayMonthText(dayOfMonth, monthIndex) + " (" + weekdayName + ") " + time
  }
}

=== FILE: end_to_end.dfy ===
/**
  Properties that span the client and the server: what the user view makes
  of a token and of a slot the server lists, what a preference toggle
  leaves stored, and what becomes of the week-based panel's assignment.
*/
module EndToEnd {
  import opened Wrappers
  import opened Models
  import Js
  import Api
  import BookingViews
  import Serializers
  import UserView
  import Preferences
  import AdminView

  /**
    The user view reads the viewer's name from the token the server issues:
    the `username` claim, whatever else the token holds.
  */
  lemma TokenNamesTheViewer(base: Serializers.Claims, user: User)
    requires user.username != ""
    ensures UserView.IdentityOf(Serializers.GetToken(base, user)).1 == Js.Str(user.username)
  {
    var token := Serializers.GetToken(base, user);
    assert UserView.Claim(token, "username") == Js.Str(user.username);
  }

  /**
    A free slot, as listed, offers Book to a signed-in user, and clicking it
    posts to that slot's book endpoint. Once the booking view has handled
    that request, the listed slot shows, to the booker, green with
    Unsubscribe, and, to any other signed-in user, red with "Occupied".
  */
  lemma {:induction false} BookedSlotShowsAsOwnToTheBooker(
    slots: map<SlotId, TimeSlot>, pk: SlotId, booker: Username, other: Username,
    categoryName: string, isoText: Instant -> string, selected: seq<int>)
    requires pk in slots && slots[pk].user.None?
    requires booker != "" && other != "" && other != booker
    ensures var before := Serializers.Represent(pk, slots[pk], categoryName, isoText);
      && UserView.SlotControl(before, Js.Str(booker)) == UserView.BookButton
      && UserView.ClickRequest(before, UserView.BookButton) == Some(Api.Request(Api.Post, Api.SlotBook(pk), Api.NoBody))
    ensures var click := UserView.ClickRequest(Serializers.Represent(pk, slots[pk], categoryName, isoText), UserView.BookButton);
      click.Some? && click.value.endpoint.SlotBook? &&
      var booked := BookingViews.Book(slots, click.value.endpoint.bookId, booker);
      var json := Serializers.Represent(pk, booked.slots[pk], categoryName, isoText);
      && booked.response == BookingViews.Booked
      && UserView.SlotColour(json, Js.Str(booker), selected) == UserView.Own
      && UserView.SlotControl(json, Js.Str(booker)) == UserView.UnsubscribeButton
      && UserView.SlotColour(json, Js.Str(other), selected) == UserView.Taken
      && UserView.SlotControl(json, Js.Str(other)) == UserView.OccupiedNote
  {
    var before := Serializers.Represent(pk, slots[pk], categoryName, isoText);
    assert before.user == Js.Null;
    var click := UserView.ClickRequest(before, UserView.BookButton);
    assert click.value.endpoint.bookId == pk;
    var after := BookingViews.Book(slots, pk, booker).slots;
    var json := Serializers.Represent(pk, after[pk], categoryName, isoText);
    assert json.user == UserView.OwnerField(Some(booker));
    UserView.ColourAndControlFollowClassification(json, Some(booker), booker, selected);
    UserView.ColourAndControlFollowClassification(json, Some(booker), other, selected);
  }

  /**
    The user view highlights a listed slot by its `category_id`: the
    category arrives as a name, and the `||` fallback reaches the id.
  */
  lemma ListedSlotsAreHighlightedByCategoryId(id: SlotId, slot: TimeSlot, categoryName: string,
                                              isoText: Instant -> string, selected: seq<int>)
    requires selected != []
    ensures UserView.IsHighlighted(selected, UserView.HighlightId(Serializers.Represent(id, slot, categoryName, isoText)))
        <==> slot.category in selected
  {
  }

  /**
    The picker writes the user view's own selection, so a toggle reaches the
    highlighting at once: switching a category on highlights its slots, and
    switching it off, while another category stays selected, stops
    highlighting them.
  */
  lemma {:induction false} ToggleReachesTheHighlight(selected: seq<int>, c: int)
    ensures c !in selected ==> UserView.IsHighlighted(Preferences.Toggle(selected, c), Js.Num(c))
    ensures c in selected && Preferences.Toggle(selected, c) != [] ==>
      !UserView.IsHighlighted(Preferences.Toggle(selected, c), Js.Num(c))
  {
    Preferences.ToggleFlipsOnlyThatId(selected, c);
  }

  /**
    As written, switching off the only selected category sends an empty
    list, which the server ignores: the old preference is still stored, so
    it comes back on the next load.
  */
  lemma {:induction false} LastCategoryCannotBeSwitchedOff(c: CategoryId)
    ensures Preferences.Toggle([c], c) == []
    ensures Serializers.PreferenceUpdate({c}, Some(Preferences.Toggle([c], c))) == {c}
  {
    assert Preferences.Without([], c) == [];
    assert Preferences.Without([c], c) == [] + Preferences.Without([], c);
  }

  /** With the corrected update, every toggle is stored exactly: the stored set is the set of the new selection. */
  lemma {:induction false} CorrectedToggleIsStored(stored: set<CategoryId>, selected: seq<CategoryId>, c: CategoryId)
    ensures var sent := Preferences.Toggle(selected, c);
      && (c in Serializers.PreferenceUpdateCorrected(stored, Some(sent)) <==> c !in selected)
      && (forall x :: x != c ==> (x in Serializers.PreferenceUpdateCorrected(stored, Some(sent)) <==> x in selected))
  {
    Preferences.ToggleFlipsOnlyThatId(selected, c);
  }

  /**
    As written, every assignment and unassignment the week-based panel sends
    carries only `user_id`, which the slot-writing serializer does not
    accept: `validate` receives empty data and the PATCH ends in a server
    error, so the panel reports it as failed.
  */
  lemma AssignmentIsAlwaysAFailure(selectedUsers: map<int, Js.Value>, slotId: int, slot: TimeSlot,
                                   readCategory: Js.Value -> Option<CategoryId>, readTime: Js.Value -> Option<Instant>)
    requires AdminView.AssignRequest(selectedUsers, slotId).Some?
    ensures var data := Serializers.ValidatedData(AdminView.AssignRequest(selectedUsers, slotId).value.body, readCategory, readTime);
      data.Some? && Serializers.PartialUpdate(slot, data.value) == Serializers.ServerError
    ensures var data := Serializers.ValidatedData(AdminView.UnassignRequest(slotId).body, readCategory, readTime);
      data.Some? && Serializers.PartialUpdate(slot, data.value) == Serializers.ServerError
  {
  }
}

=== FILE: models.dfy ===
/**
  The server's records (`scheduler/models.py`) as values. Users are
  identified by their username, which Django keeps unique; date-times are
  milliseconds since the epoch, so day number d begins at d * MillisPerDay.
*/
module Models {
  import opened Wrappers

  type Username = string
  type SlotId = int
  type CategoryId = int
  type Instant = int

  const MillisPerDay: nat := 86400000

  /** An event category: its name (how slots show it) and a description. */
  datatype EventCategory = EventCategory(name: string, description: string)

  /** A bookable slot: its category, start and end, and the user holding it, if any. */
  datatype TimeSlot = TimeSlot(category: CategoryId, startTime: Instant, endTime: Instant, user: Option<Username>)

  /** A user account, with the two flags the access token carries. */
  datatype User = User(username: Username, isStaff: bool, isSuperuser: bool)

  /** A user's preferred categories. */
  datatype UserPreference = UserPreference(categories: set<CategoryId>)

  /** An HTTP response: its status and its `detail`, a message or a list of messages. */
  datatype Detail = Message(text: string) | Messages(texts: seq<string>)
  datatype Response = Response(status: int, detail: Detail)
}

=== FILE: preferences.dfy ===
/**
  The category preference picker (`Preferences.js`): loading the stored
  selection, and toggling one category in or out of it, which also sends the
  whole new selection to the server.
*/
module Preferences {
  import Api
  import UserView

  /** `ids.filter(i => i !== id)`: every occurrence of `id` removed, the rest in order. */
  function Without(ids: seq<int>, id: int): (r: seq<int>)
    ensures forall x :: x in r <==> x in ids && x != id
    ensures |r| <= |ids|
  {
    if ids == [] then []
    else (if ids[0] == id then [] else [ids[0]]) + Without(ids[1..], id)
  }

  /** `toggleCategory`'s new selection: drop every occurrence of a present id, append an absent one. */
  function Toggle(selected: seq<int>, id: int): seq<int> {
    if id in selected then Without(selected, id) else selected + [id]
  }

  /** Removing from a list that does not hold the id changes nothing. */
  lemma {:induction false} WithoutAbsent(ids: seq<int>, id: int)
    requires id !in ids
    ensures Without(ids, id) == ids
  {
    if ids != [] {
      WithoutAbsent(ids[1..], id);
    }
  }

  /** Removal distributes over concatenation. */
  lemma {:induction false} WithoutConcat(a: seq<int>, b: seq<int>, id: int)
    ensures Without(a + b, id) == Without(a, id) + Without(b, id)
  {
    if a == [] {
      assert a + b == b;
    } else {
      assert (a + b)[1..] == a[1..] + b;
      WithoutConcat(a[1..], b, id);
    }
  }

  /** Exactly the toggled id changes membership: it flips, every other id keeps its presence. */
  lemma ToggleFlipsOnlyThatId(selected: seq<int>, id: int)
    ensures id in Toggle(selected, id) <==> id !in selected
    ensures forall x :: x != id ==> (x in Toggle(selected, id) <==> x in selected)
  {
  }

  /** A present id leaves with every occurrence; an absent id is appended at the end. */
  lemma ToggleRemovesOrAppends(selected: seq<int>, id: int)
    ensures id in selected ==> id !in Toggle(selected, id) && |Toggle(selected, id)| < |selected|
    ensures id !in selected ==> Toggle(selected, id) == selected + [id]
  {
    if id in selected {
      LengthOfWithoutPresent(selected, id);
    }
  }

  lemma {:induction false} LengthOfWithoutPresent(ids: seq<int>, id: int)
    requires id in ids
    ensures |Without(ids, id)| < |ids|
  {
    if ids[0] != id {
      LengthOfWithoutPresent(ids[1..], id);
    }
  }

  /** Apart from the toggled id the selection is the same list: same ids, same order, same repetitions. */
  lemma {:induction false} ToggleKeepsTheOthersInOrder(selected: seq<int>, id: int)
    ensures Without(Toggle(selected, id), id) == Without(selected, id)
  {
    if id in selected {
      WithoutIdempotent(selected, id);
    } else {
      WithoutConcat(selected, [id], id);
      assert Without([id], id) == [];
    }
  }

  lemma {:induction false} WithoutIdempotent(ids: seq<int>, id: int)
    ensures Without(Without(ids, id), id) == Without(ids, id)
  {
    WithoutAbsent(Without(ids, id), id);
  }

  /**
    Toggling twice gives back the same set of ids; when the id was absent it
    gives back the very same list.
  */
  lemma {:induction false} ToggleTwice(selected: seq<int>, id: int)
    ensures forall x :: x in Toggle(Toggle(selected, id), id) <==> x in selected
    ensures id !in selected ==> Toggle(Toggle(selected, id), id) == selected
  {
    if id !in selected {
      var once := selected + [id];
      assert id in once;
      WithoutConcat(selected, [id], id);
      WithoutAbsent(selected, id);
      assert Without([id], id) == [];
    }
  }

  /** `res.data.categories.map(cat => cat.id)`: the ids of the listed categories, in order. */
  function IdsOf(categories: seq<Api.CategoryJson>): (ids: seq<int>)
    ensures |ids| == |categories|
    ensures forall i :: 0 <= i < |ids| ==> ids[i] == categories[i].id
  {
    seq(|categories|, i requires 0 <= i < |categories| => categories[i].id)
  }

  /** The two answers each request of the picker can get: a listing, or an error the `.catch` only logs. */
  datatype Reply =
    | CategoriesReply(listed: seq<Api.CategoryJson>)
    | CategoriesFailed
    | PreferencesReply(stored: seq<Api.CategoryJson>)
    | PreferencesFailed

  /** The picker's own state: the listed categories and the loading flag. */
  datatype Picker = Picker(categories: seq<Api.CategoryJson>, loading: bool)

  /** What the picker renders: "Ładowanie preferencji..." while loading, else one item per category. */
  datatype Panel = LoadingMessage | CategoryList(items: seq<Api.CategoryJson>)

  function Shown(p: Picker): Panel {
    if p.loading then LoadingMessage else CategoryList(p.categories)
  }

  /**
    One reply handled. The preferences reply ends loading only when the
    picker was given `setSelectedIds`: without it the call throws a
    `TypeError` before `setLoading(false)`, and the `.catch` only logs it.
  */
  function Step(hasSetter: bool, p: Picker, r: Reply): Picker {
    match r
    case CategoriesReply(listed) => p.(categories := listed)
    case CategoriesFailed => p
    case PreferencesReply(_) => if hasSetter then p.(loading := false) else p
    case PreferencesFailed => p
  }

  /** The replies handled in the order they arrive. */
  function Run(hasSetter: bool, p: Picker, replies: seq<Reply>): Picker
    decreases |replies|
  {
    if replies == [] then p else Run(hasSetter, Step(hasSetter, p, replies[0]), replies[1..])
  }

  /**
    As written, `App.js` also mounts the picker with no `setSelectedIds`:
    whatever replies arrive, in whatever order, that picker keeps loading and
    never shows its list.
  */
  lemma {:induction false} SetterlessPickerNeverLoads(p: Picker, replies: seq<Reply>)
    requires p.loading
    ensures Run(false, p, replies).loading
    ensures Shown(Run(false, p, replies)) == LoadingMessage
    decreases |replies|
  {
    if replies != [] {
      SetterlessPickerNeverLoads(Step(false, p, replies[0]), replies[1..]);
    }
  }

  /** Once loaded, a picker with a setter stays loaded. */
  lemma {:induction false} LoadedPickerStaysLoaded(p: Picker, replies: seq<Reply>)
    requires !p.loading
    ensures !Run(true, p, replies).loading
    decreases |replies|
  {
    if replies != [] {
      LoadedPickerStaysLoaded(Step(true, p, replies[0]), replies[1..]);
    }
  }

  /**
    The intended picker, the one the user view mounts with its setter: once
    the stored preferences have arrived it shows the list of categories.
  */
  lemma {:induction false} BoundPickerShowsTheList(p: Picker, replies: seq<Reply>)
    requires exists i :: 0 <= i < |replies| && replies[i].PreferencesReply?
    ensures !Run(true, p, replies).loading
    ensures Shown(Run(true, p, replies)) == CategoryList(Run(true, p, replies).categories)
    decreases |replies|
  {
    if replies[0].PreferencesReply? {
      LoadedPickerStaysLoaded(Step(true, p, replies[0]), replies[1..]);
    } else {
      var i :| 0 <= i < |replies| && replies[i].PreferencesReply?;
      assert replies[1..][i - 1].PreferencesReply?;
      BoundPickerShowsTheList(Step(true, p, replies[0]), replies[1..]);
    }
  }

  /**
    The state of the preference picker. The selection is not its own: it is
    the `selectedCategories` state of the user view that renders it, which
    the picker reads through `selectedIds` and writes through
    `setSelectedIds`. `parent` is null for the mount in `App.js`, which
    passes neither.
  */
  class PreferencesState {
    var categories: seq<Api.CategoryJson>
    var loading: bool
    const parent: UserView.UserViewState?

    constructor (parent: UserView.UserViewState?)
      ensures categories == [] && loading && this.parent == parent
    {
      categories := [];
      loading := true;
      this.parent := parent;
    }

    /** The categories list arrived: it is stored, and neither the loading flag nor the parent view changes. */
    method ReceiveCategories(listed: seq<Api.CategoryJson>)
      modifies this
      ensures categories == listed
      ensures loading == old(loading)
      ensures Picker(categories, loading) == Step(parent != null, old(Picker(categories, loading)), CategoriesReply(listed))
    {
      categories := listed;
    }

    /**
      The stored preferences arrived: the parent view's selection becomes
      their ids, in order, and loading ends. Nothing else in the parent
      changes. Without a parent the setter call throws and nothing changes.
    */
    method ReceivePreferences(stored: seq<Api.CategoryJson>)
      modifies this, parent
      ensures Picker(categories, loading) == Step(parent != null, old(Picker(categories, loading)), PreferencesReply(stored))
      ensures categories == old(categories)
      ensures parent == null ==> loading == old(loading)
      ensures parent != null ==> !loading && parent.selectedCategories == IdsOf(stored)
      ensures parent != null ==> parent.slots == old(parent.slots) && parent.weekOffset == old(parent.weekOffset)
      ensures parent != null ==> parent.loading == old(parent.loading)
      ensures parent != null ==> parent.userId == old(parent.userId) && parent.username == old(parent.username)
    {
      if parent != null {
        parent.selectedCategories := IdsOf(stored);
        loading := false;
      }
    }

    /**
      `toggleCategory(id)`: the parent view's selection becomes the toggled
      one, and the PATCH body carries exactly that new selection. Nothing
      else in the parent changes. Only a picker with a parent ever shows the
      list that is clicked (see SetterlessPickerNeverLoads).
    */
    method ToggleCategory(id: int) returns (request: Api.Request)
      requires parent != null
      modifies parent
      ensures parent.selectedCategories == Toggle(old(parent.selectedCategories), id)
      ensures request == Api.Request(Api.Patch, Api.PreferenceDetail, Api.CategoryIds(parent.selectedCategories))
      ensures parent.slots == old(parent.slots) && parent.weekOffset == old(parent.weekOffset)
      ensures parent.loading == old(parent.loading)
      ensures parent.userId == old(parent.userId) && parent.username == old(parent.username)
    {
      var selectedIds := parent.selectedCategories;
      var newSelected := if id in selectedIds then Without(selectedIds, id) else selectedIds + [id];
      parent.selectedCategories := newSelected;
      request := Api.Request(Api.Patch, Api.PreferenceDetail, Api.CategoryIds(newSelected));
    }
  }
}

=== FILE: serializers.dfy ===
/**
  The server's serializers (`scheduler/serializers.py`): how a slot is
  rendered for the client, how the slot-writing serializer validates and
  applies its fields, the booking serializer's update, the preference
  update, and the claims added to an access token.
*/
module Serializers {
  import opened Wrappers
  import opened Models
  import Js
  import Api

  // ----- TimeSlotSerializer: how a slot is sent -----

  /**
    A slot as the API lists it: the category as its name (a string related
    field, so with no `id`), its id under `category_id`, both times as text
    and the holder's username, or null for a free slot.
  */
  function Represent(id: SlotId, slot: TimeSlot, categoryName: string, isoText: Instant -> string): (json: Api.SlotJson)
    ensures json.id == id && json.category == Api.Named(categoryName)
    ensures json.categoryId == Js.Num(slot.category)
    ensures json.startTime == isoText(slot.startTime) && json.endTime == isoText(slot.endTime)
    ensures slot.user.None? ==> json.user == Js.Null
    ensures slot.user.Some? ==> json.user == Js.Str(slot.user.value)
  {
    Api.SlotJson(id, Api.Named(categoryName), Js.Num(slot.category),
                 isoText(slot.startTime), isoText(slot.endTime),
                 match slot.user case None => Js.Null case Some(name) => Js.Str(name))
  }

  // ----- TimeSlotCreateSerializer: writing a slot -----

  /** The names of the fields the slot-writing serializer accepts; `category` and `user` are read-only. */
  const SlotWritableFields: set<string> := {"category_id", "start_time", "end_time"}

  /** The keys of the JSON body the client sends with a request. */
  function CarriedFields(body: Api.Body): set<string> {
    match body
    case NoBody => {}
    case SlotFields(_, _, _) => {"category_id", "start_time", "end_time"}
    case Assignee(_) => {"user_id"}
    case CategoryIds(_) => {"categories_ids"}
  }

  /** The validated data: each writable field, when the request carried it. Other keys are dropped. */
  datatype SlotData = SlotData(category: Option<CategoryId>, startTime: Option<Instant>, endTime: Option<Instant>)

  /** The result of `validate`: accepted, refused with its message, or a `KeyError` (a server error). */
  datatype Validation = Accepted | Rejected(message: string) | MissingKey

  const StartNotBeforeEnd: string := "Start time must be before end time"

  /** `validate(data)`: both times must be in the data, and the start strictly before the end. */
  function Validate(data: SlotData): (v: Validation)
    ensures v == Accepted <==> data.startTime.Some? && data.endTime.Some? && data.startTime.value < data.endTime.value
    ensures v == MissingKey <==> data.startTime.None? || data.endTime.None?
    ensures v.Rejected? ==> v.message == StartNotBeforeEnd
  {
    if data.startTime.None? || data.endTime.None? then MissingKey
    else if data.startTime.value >= data.endTime.value then Rejected(StartNotBeforeEnd)
    else Accepted
  }

  /** What a write through the serializer ends in: the saved slot, a 400 with a message, or a 500. */
  datatype WriteOutcome = Saved(slot: TimeSlot) | BadRequest(message: string) | ServerError

  const FieldRequired: string := "This field is required."

  /**
    Creating a slot (`create`): every writable field is required, then the
    times are validated; a new slot is always free.
  */
  function CreateSlot(data: SlotData): (o: WriteOutcome)
    ensures o.Saved? <==> data.category.Some? && Validate(data) == Accepted
    ensures o.Saved? ==> o.slot == TimeSlot(data.category.value, data.startTime.value, data.endTime.value, None)
    ensures o.Saved? ==> o.slot.startTime < o.slot.endTime
    ensures !o.Saved? ==> o.BadRequest?
  {
    if data.category.None? || data.startTime.None? || data.endTime.None? then BadRequest(FieldRequired)
    else match Validate(data)
      case Accepted => Saved(TimeSlot(data.category.value, data.startTime.value, data.endTime.value, None))
      case Rejected(message) => BadRequest(message)
      case MissingKey => ServerError
  }

  /**
    A partial update (`partial_update`, the PATCH the panels send): no field
    is required, `validate` sees only the fields sent, and the fields sent
    replace the slot's. The holder is never touched.
  */
  function PartialUpdate(slot: TimeSlot, data: SlotData): (o: WriteOutcome)
    ensures o.Saved? <==> Validate(data) == Accepted
    ensures o == ServerError <==> Validate(data) == MissingKey
    ensures o.Saved? ==> o.slot.user == slot.user
    ensures o.Saved? ==> o.slot.startTime == data.startTime.value && o.slot.endTime == data.endTime.value
    ensures o.Saved? ==> o.slot.category == (if data.category.Some? then data.category.value else slot.category)
  {
    match Validate(data)
    case MissingKey => ServerError
    case Rejected(message) => BadRequest(message)
    case Accepted =>
      Saved(TimeSlot(
        if data.category.Some? then data.category.value else slot.category,
        data.startTime.value, data.endTime.value, slot.user))
  }

  /** Every slot the writing serializer saves starts strictly before it ends. */
  lemma SavedSlotsAreOrdered(slot: TimeSlot, data: SlotData)
    ensures CreateSlot(data).Saved? ==> CreateSlot(data).slot.startTime < CreateSlot(data).slot.endTime
    ensures PartialUpdate(slot, data).Saved? ==> PartialUpdate(slot, data).slot.startTime < PartialUpdate(slot, data).slot.endTime
  {
  }

  /**
    The data `validate` receives for a request body: the writable keys the
    body carries, each read by its field (`readCategory` for the primary key
    of `category_id`, `readTime` for a datetime); `None` when a carried field
    does not read, which DRF answers with a 400. Every other key is dropped.
  */
  function ValidatedData(body: Api.Body, readCategory: Js.Value -> Option<CategoryId>,
                         readTime: Js.Value -> Option<Instant>): (data: Option<SlotData>)
    ensures CarriedFields(body) * SlotWritableFields == {} ==> data == Some(SlotData(None, None, None))
    ensures body.SlotFields? ==>
      (data.Some? <==> readCategory(body.categoryId).Some? && readTime(body.startTime).Some? && readTime(body.endTime).Some?)
    ensures body.SlotFields? && data.Some? ==>
      data.value == SlotData(readCategory(body.categoryId), readTime(body.startTime), readTime(body.endTime))
  {
    match body
    case SlotFields(categoryId, startTime, endTime) =>
      assert "category_id" in CarriedFields(body) * SlotWritableFields;
      if readCategory(categoryId).Some? && readTime(startTime).Some? && readTime(endTime).Some?
      then Some(SlotData(readCategory(categoryId), readTime(startTime), readTime(endTime)))
      else None
    case _ => Some(SlotData(None, None, None))
  }

  /**
    As written, the assignment PATCH the week-based panel sends (`user_id`
    only) carries none of the writable fields, so `validate` receives empty
    data, reads a missing `start_time` and the server fails with a 500:
    assigning and unassigning never reach the slot's holder.
  */
  lemma AssignmentFailsOnTheServer(slot: TimeSlot, userId: Js.Value,
                                   readCategory: Js.Value -> Option<CategoryId>, readTime: Js.Value -> Option<Instant>)
    ensures CarriedFields(Api.Assignee(userId)) * SlotWritableFields == {}
    ensures var data := ValidatedData(Api.Assignee(userId), readCategory, readTime);
      data.Some? && PartialUpdate(slot, data.value) == ServerError
  {
  }

  /**
    The evidently intended partial update: `validate` falls back to the
    slot's own times for those not sent, and a `user_id` field, when sent,
    sets the holder (null frees the slot).
  */
  function PartialUpdateCorrected(slot: TimeSlot, data: SlotData, holder: Option<Option<Username>>): (o: WriteOutcome)
    ensures var start := if data.startTime.Some? then data.startTime.value else slot.startTime;
      var end := if data.endTime.Some? then data.endTime.value else slot.endTime;
      && (o.Saved? <==> start < end)
      && (!o.Saved? ==> o == BadRequest(StartNotBeforeEnd))
      && (o.Saved? ==> o.slot.startTime == start && o.slot.endTime == end)
    ensures o.Saved? ==> o.slot.user == (if holder.Some? then holder.value else slot.user)
    ensures o.Saved? ==> o.slot.category == (if data.category.Some? then data.category.value else slot.category)
  {
    var merged := SlotData(
      data.category,
      Some(if data.startTime.Some? then data.startTime.value else slot.startTime),
      Some(if data.endTime.Some? then data.endTime.value else slot.endTime));
    match Validate(merged)
    case Accepted =>
      Saved(TimeSlot(
        if data.category.Some? then data.category.value else slot.category,
        merged.startTime.value, merged.endTime.value,
        if holder.Some? then holder.value else slot.user))
    case Rejected(message) => BadRequest(message)
    case MissingKey => ServerError
  }

  /**
    With the corrected update, an assignment on a valid slot sets exactly
    the holder, and an unassignment frees the slot; category and times stay.
  */
  lemma CorrectedAssignmentSetsTheHolder(slot: TimeSlot, holder: Option<Username>)
    requires slot.startTime < slot.endTime
    ensures PartialUpdateCorrected(slot, SlotData(None, None, None), Some(holder)) == Saved(slot.(user := holder))
  {
  }

  // ----- TimeSlotBookingSerializer -----

  datatype BookingResult = BookedSlot(slot: TimeSlot) | AlreadyBooked(message: string)

  const BookedByAnother: string := "Slot is already booked by another user."

  /**
    The booking serializer's `update`: a slot held by someone else is
    refused; otherwise (free, or already the requester's) the requester
    becomes its holder and nothing else changes.
  */
  function BookingUpdate(slot: TimeSlot, requester: Username): (r: BookingResult)
    ensures r.AlreadyBooked? <==> slot.user.Some? && slot.user.value != requester
    ensures r.AlreadyBooked? ==> r.message == BookedByAnother
    ensures r.BookedSlot? ==> r.slot == slot.(user := Some(requester))
  {
    if slot.user.Some? && slot.user.value != requester then AlreadyBooked(BookedByAnother)
    else BookedSlot(slot.(user := Some(requester)))
  }

  /** Booking through the serializer twice as the same user succeeds both times and changes nothing the second time. */
  lemma BookingUpdateIsIdempotent(slot: TimeSlot, requester: Username)
    requires BookingUpdate(slot, requester).BookedSlot?
    ensures BookingUpdate(BookingUpdate(slot, requester).slot, requester) == BookingUpdate(slot, requester)
  {
  }

  // ----- UserPreferenceSerializer -----

  /** The ids in a list, as a set. */
  function SetOf(ids: seq<CategoryId>): (s: set<CategoryId>)
    ensures forall x :: x in s <==> x in ids
  {
    set x | x in ids
  }

  /**
    `update` as written: `categories_ids` (absent counts as an empty list)
    replaces the stored set only when it is non-empty; an empty list keeps
    the old preferences.
  */
  function PreferenceUpdate(stored: set<CategoryId>, categoriesIds: Option<seq<CategoryId>>): (after: set<CategoryId>)
    ensures categoriesIds.Some? && categoriesIds.value != [] ==> after == SetOf(categoriesIds.value)
    ensures categoriesIds.None? || categoriesIds.value == [] ==> after == stored
  {
    var given := if categoriesIds.Some? then categoriesIds.value else [];
    if given != [] then SetOf(given) else stored
  }

  /** As written, sending an empty list does not clear non-empty preferences. */
  lemma EmptyListDoesNotClear(stored: set<CategoryId>)
    requires stored != {}
    ensures PreferenceUpdate(stored, Some([])) == stored
    ensures PreferenceUpdate(stored, Some([])) != SetOf([])
  {
  }

  /** The evidently intended update: any list that is sent, the empty one included, becomes the stored set. */
  function PreferenceUpdateCorrected(stored: set<CategoryId>, categoriesIds: Option<seq<CategoryId>>): (after: set<CategoryId>)
    ensures categoriesIds.Some? ==> after == SetOf(categoriesIds.value)
    ensures categoriesIds.None? ==> after == stored
  {
    match categoriesIds
    case Some(ids) => SetOf(ids)
    case None => stored
  }

  /** The corrected update stores what was sent, and agrees with the original on every non-empty list. */
  lemma CorrectedUpdateStoresWhatWasSent(stored: set<CategoryId>, ids: seq<CategoryId>)
    ensures forall x :: x in PreferenceUpdateCorrected(stored, Some(ids)) <==> x in ids
    ensures ids != [] ==> PreferenceUpdateCorrected(stored, Some(ids)) == PreferenceUpdate(stored, Some(ids))
  {
  }

  // ----- CustomTokenObtainPairSerializer -----

  /** The claims of a token: names to JSON values, as the client decodes them. */
  type Claims = map<string, Js.Value>

  /**
    `get_token(user)`: the library's claims with `is_staff`, `is_superuser`
    and `username` added (overwriting any of the same name); every other
    claim is kept.
  */
  function GetToken(base: Claims, user: User): (token: Claims)
    ensures token.Keys == base.Keys + {"is_staff", "is_superuser", "username"}
    ensures token["is_staff"] == Js.Bool(user.isStaff)
    ensures token["is_superuser"] == Js.Bool(user.isSuperuser)
    ensures token["username"] == Js.Str(user.username)
    ensures forall k :: k in base && k !in {"is_staff", "is_superuser", "username"} ==> token[k] == base[k]
  {
    base["is_staff" := Js.Bool(user.isStaff)]["is_superuser" := Js.Bool(user.isSuperuser)]["username" := Js.Str(user.username)]
  }
}

=== FILE: slot_form.dfy ===
/**
  The slot form shared by the two administrator panels (`AdminView.js` and
  `AdminSlots.js` hold the same form logic): the required-field check, the
  request a submission sends, the empty form and the form loaded for editing.
*/
module SlotForm {
  import opened Wrappers
  import Js
  import Api

  /** The form state: id (null while creating), category, start and end as the inputs hold them. */
  datatype Form = Form(id: Js.Value, category: Js.Value, startTime: Js.Value, endTime: Js.Value)

  /** The form's names for its inputs (`e.target.name`). */
  datatype FieldName = CategoryField | StartTimeField | EndTimeField

  /** `{ id: null, category: '', start_time: '', end_time: '' }`. */
  function EmptyForm(): Form {
    Form(Js.Null, Js.Str(""), Js.Str(""), Js.Str(""))
  }

  /** `!form.category || !form.start_time || !form.end_time` is false: every required field is truthy. */
  predicate Complete(f: Form) {
    Js.Truthy(f.category) && Js.Truthy(f.startTime) && Js.Truthy(f.endTime)
  }

  /** The request body: `category_id` from the category field, both times copied. */
  function Payload(f: Form): (body: Api.Body)
    ensures body.SlotFields?
    ensures body.categoryId == f.category && body.startTime == f.startTime && body.endTime == f.endTime
  {
    Api.SlotFields(f.category, f.startTime, f.endTime)
  }

  /**
    The request a submission sends: none when a required field is empty; a
    PATCH of the slot when the form carries a (truthy) id; a POST to the slot
    list otherwise. Both carry the payload.
  */
  function SubmitRequest(f: Form): (r: Option<Api.Request>)
    ensures r.None? <==> !Complete(f)
    ensures r.Some? ==> r.value.body == Payload(f)
    ensures r.Some? && Js.Truthy(f.id) ==> r.value.verb == Api.Patch && r.value.endpoint == Api.SlotDetail(f.id)
    ensures r.Some? && !Js.Truthy(f.id) ==> r.value.verb == Api.Post && r.value.endpoint == Api.SlotList(None)
  {
    if !Complete(f) then None
    else if Js.Truthy(f.id) then Some(Api.Request(Api.Patch, Api.SlotDetail(f.id), Payload(f)))
    else Some(Api.Request(Api.Post, Api.SlotList(None), Payload(f)))
  }

  /** `handleChange`: the named input takes the typed text, the rest of the form is kept. */
  function Change(f: Form, name: FieldName, value: string): (r: Form)
    ensures r.id == f.id
    ensures r.category == (if name == CategoryField then Js.Str(value) else f.category)
    ensures r.startTime == (if name == StartTimeField then Js.Str(value) else f.startTime)
    ensures r.endTime == (if name == EndTimeField then Js.Str(value) else f.endTime)
  {
    match name
    case CategoryField => f.(category := Js.Str(value))
    case StartTimeField => f.(startTime := Js.Str(value))
    case EndTimeField => f.(endTime := Js.Str(value))
  }

  /**
    `handleEdit(slot)` as written: the slot's id, `slot.category.id`, and the
    first 16 characters (`yyyy-mm-ddThh:mm`) of its start and end.
  */
  function EditForm(slot: Api.SlotJson): (f: Form)
    ensures f.id == Js.Num(slot.id) && f.category == Api.CategoryIdOf(slot.category)
    ensures f.startTime.Str? && f.startTime.s <= slot.startTime
    ensures |f.startTime.s| == if |slot.startTime| < 16 then |slot.startTime| else 16
    ensures f.endTime.Str? && f.endTime.s <= slot.endTime
    ensures |f.endTime.s| == if |slot.endTime| < 16 then |slot.endTime| else 16
  {
    Form(Js.Num(slot.id), Api.CategoryIdOf(slot.category),
         Js.Str(Js.Slice(slot.startTime, 16)), Js.Str(Js.Slice(slot.endTime, 16)))
  }

  /**
    The slot list sends each slot's category as its name, and a name has no
    `id`: editing such a slot loads an undefined category, so saving it is
    refused as incomplete and sends nothing, whatever the slot holds.
  */
  lemma EditingAListedSlotCannotBeSaved(slot: Api.SlotJson)
    requires slot.category.Named?
    ensures EditForm(slot).category == Js.Undefined
    ensures SubmitRequest(EditForm(slot)) == None
  {
  }

  /**
    The evidently intended edit: take the category id from the record when
    there is one and from `category_id` otherwise, as the user view does.
  */
  function EditFormCorrected(slot: Api.SlotJson): (f: Form)
    ensures f.category == (if Js.Truthy(Api.CategoryIdOf(slot.category)) then Api.CategoryIdOf(slot.category) else slot.categoryId)
    ensures f.id == EditForm(slot).id && f.startTime == EditForm(slot).startTime && f.endTime == EditForm(slot).endTime
  {
    EditForm(slot).(category := Js.Or(Api.CategoryIdOf(slot.category), slot.categoryId))
  }

  /**
    With the corrected edit, saving an unchanged listed slot (positive id,
    category id set, non-empty times) sends a PATCH of that slot carrying its
    own category id and its times cut to the minute.
  */
  lemma EditThenSaveResendsTheSlot(slot: Api.SlotJson)
    requires slot.id > 0 && Js.Truthy(slot.categoryId)
    requires slot.startTime != "" && slot.endTime != ""
    ensures SubmitRequest(EditFormCorrected(slot)) == Some(Api.Request(
      Api.Patch, Api.SlotDetail(Js.Num(slot.id)),
      Api.SlotFields(
        if Js.Truthy(Api.CategoryIdOf(slot.category)) then Api.CategoryIdOf(slot.category) else slot.categoryId,
        Js.Str(Js.Slice(slot.startTime, 16)), Js.Str(Js.Slice(slot.endTime, 16)))))
  {
  }
}

=== FILE: slot_viewset.dfy ===
/**
  The slot collection endpoint (`TimeSlotViewSet` in `scheduler/views.py`):
  which serializer and which permission each action uses, and the `week`
  query parameter that narrows the list to one week. "Today" is a
  parameter, as a day number in the numbering the client uses.
*/
module SlotViewSet {
  import opened Wrappers
  import opened Models
  import Digits
  import Js
  import Calendar

  // ----- Which serializer, which permission -----

  datatype SerializerClass = TimeSlotSerializer | TimeSlotCreateSerializer

  /** `get_serializer_class`: the create serializer for the three writing actions, the read one otherwise. */
  function SerializerFor(action: Option<string>): (c: SerializerClass)
    ensures c == TimeSlotCreateSerializer <==>
      action.Some? && action.value in {"create", "update", "partial_update"}
  {
    if action.Some? && action.value in ["create", "update", "partial_update"] then TimeSlotCreateSerializer
    else TimeSlotSerializer
  }

  datatype Permission = IsAuthenticated | IsAdminUser

  /** `get_permissions`: listing and reading one slot need a signed-in user, every other action a staff user. */
  function PermissionFor(action: Option<string>): (p: Permission)
    ensures p == IsAuthenticated <==> action == Some("list") || action == Some("retrieve")
  {
    if action.Some? && action.value in ["list", "retrieve"] then IsAuthenticated else IsAdminUser
  }

  /**
    Whether a request gets through: `None` when it does, 401 for an
    anonymous requester, 403 for a signed-in one without the permission.
  */
  function Refusal(action: Option<string>, requester: Option<User>): (status: Option<int>)
    ensures requester.None? ==> status == Some(401)
    ensures requester.Some? && PermissionFor(action) == IsAuthenticated ==> status == None
    ensures requester.Some? && PermissionFor(action) == IsAdminUser ==>
      status == (if requester.value.isStaff then None else Some(403))
  {
    if requester.None? then Some(401)
    else if PermissionFor(action) == IsAdminUser && !requester.value.isStaff then Some(403)
    else None
  }

  /**
    Any signed-in user may list and read slots; creating, replacing,
    updating and deleting are for staff only; an anonymous request is
    always refused as unauthenticated.
  */
  lemma OnlyStaffWrite(user: User, action: string)
    ensures Refusal(Some("list"), Some(user)) == None && Refusal(Some("retrieve"), Some(user)) == None
    ensures action in {"create", "update", "partial_update", "destroy"} ==>
      Refusal(Some(action), Some(user)) == (if user.isStaff then None else Some(403))
    ensures Refusal(Some(action), None) == Some(401)
  {
  }

  /** The create serializer, which accepts slot fields, only serves actions that need staff. */
  lemma WritingSerializerNeedsStaff(action: Option<string>)
    requires SerializerFor(action) == TimeSlotCreateSerializer
    ensures PermissionFor(action) == IsAdminUser
  {
  }

  // ----- The week parameter -----

  /** Python's default limit on the digits `int(text)` converts (`sys.get_int_max_str_digits()`). */
  const MaxStrDigits: nat := 4300

  /**
    Python's `int(text)` for an optional sign followed by ASCII digits, at
    most `MaxStrDigits` of them; `None` where `int` raises `ValueError`,
    which includes a longer digit string.
  */
  function ParseInt(s: string): (r: Option<int>)
    ensures r.Some? <==>
      (|s| >= 1 && (s[0] == '-' || s[0] == '+' || Digits.IsDigit(s[0]))
        && (s[0] == '-' || s[0] == '+' ==> 2 <= |s| <= MaxStrDigits + 1) && Digits.AllDigits(s[1..])
        && (Digits.IsDigit(s[0]) ==> |s| <= MaxStrDigits))
    ensures r.Some? && s[0] == '-' ==> r.value <= 0
    ensures r.Some? && s[0] != '-' ==> r.value >= 0
  {
    if s == [] then None
    else if s[0] == '-' || s[0] == '+' then
      if 2 <= |s| <= MaxStrDigits + 1 && Digits.AllDigits(s[1..]) then
        Some(if s[0] == '-' then 0 - Digits.Value(s[1..]) as int else Digits.Value(s[1..]))
      else None
    else if |s| <= MaxStrDigits && Digits.AllDigits(s) then Some(Digits.Value(s))
    else None
  }

  /** The decimal digits of k, without its sign. */
  function DigitCount(k: int): (n: nat)
    ensures n >= 1
  {
    if k < 0 then |Digits.NatToString(-k)| else |Digits.NatToString(k)|
  }

  /**
    Reading back the text the client writes for a week offset gives that
    offset, for every offset of at most `MaxStrDigits` digits.
  */
  lemma {:induction false} ParseIntOfIntToString(k: int)
    requires DigitCount(k) <= MaxStrDigits
    ensures ParseInt(Js.IntToString(k)) == Some(k)
  {
    var s := Js.IntToString(k);
    if k < 0 {
      assert s[1..] == Digits.NatToString(-k);
      Digits.ValueOfNatToString(-k);
    } else {
      assert s == Digits.NatToString(k);
      assert Digits.IsDigit(s[0]);
      Digits.ValueOfNatToString(k);
    }
  }

  /** The week offset the list is narrowed to: none without a `week` parameter, 0 for one that is not a number. */
  function WeekOffset(week: Option<string>): (offset: Option<int>)
    ensures week.None? <==> offset.None?
    ensures week.Some? && ParseInt(week.value).None? ==> offset == Some(0)
    ensures week.Some? && ParseInt(week.value).Some? ==> offset == ParseInt(week.value)
  {
    match week
    case None => None
    case Some(text) => match ParseInt(text) case Some(k) => Some(k) case None => Some(0)
  }

  /** `date.weekday()`: 0 for Monday, ..., 6 for Sunday. */
  function PyWeekday(day: int): (w: nat)
    ensures w < 7
  {
    (day + 3) % 7
  }

  /** A digit string longer than Python converts is not a number to the view: the list is narrowed to this week. */
  lemma OverlongWeekIsThisWeek(text: string)
    requires Digits.AllDigits(text) && |text| > MaxStrDigits
    ensures ParseInt(text).None?
    ensures WeekOffset(Some(text)) == Some(0)
  {
  }

  /** The first day of the window: this week's Monday moved by whole weeks. */
  function WindowStart(today: int, weekOffset: int): int {
    today - PyWeekday(today) + 7 * weekOffset
  }

  /**
    `start_time__gte=start_of_week, start_time__lte=end_of_week`: from the
    Monday's midnight up to and including the next Monday's midnight.
  */
  predicate InWindow(t: Instant, today: int, weekOffset: int) {
    WindowStart(today, weekOffset) * MillisPerDay <= t <= (WindowStart(today, weekOffset) + 7) * MillisPerDay
  }

  /** The day numbers of `date.min` (0001-01-01) and `date.max` (9999-12-31). */
  const MinDay: int := -719162
  const MaxDay: int := 2932896

  /**
    Whether the window's dates exist: `start_of_week + timedelta(weeks=k)`
    and the day seven later raise `OverflowError` once they leave the years
    1 to 9999.
  */
  predicate WindowRepresentable(today: int, weekOffset: int) {
    MinDay <= WindowStart(today, weekOffset) && WindowStart(today, weekOffset) + 7 <= MaxDay
  }

  /** What the list endpoint answers: the listed slots, or a server error for an unrepresentable window. */
  datatype Listing = Listed(slots: map<SlotId, TimeSlot>) | DateOverflow

  /** `get_queryset`: every slot without a `week` parameter, else those starting in the window. */
  function Queryset(slots: map<SlotId, TimeSlot>, week: Option<string>, today: int): (r: Listing)
    ensures week.None? ==> r == Listed(slots)
    ensures r.DateOverflow? <==> week.Some? && !WindowRepresentable(today, WeekOffset(week).value)
    ensures r.Listed? ==> forall id :: id in r.slots ==> id in slots && r.slots[id] == slots[id]
    ensures r.Listed? ==> forall id :: id in slots && week.Some? ==>
      (id in r.slots <==> InWindow(slots[id].startTime, today, WeekOffset(week).value))
  {
    match WeekOffset(week)
    case None => Listed(slots)
    case Some(k) =>
      if WindowRepresentable(today, k)
      then Listed(map id | id in slots && InWindow(slots[id].startTime, today, k) :: slots[id])
      else DateOverflow
  }

  /** For a day in the years 1 to 9999, a week offset far enough out is a server error: the window has no dates. */
  lemma {:induction false} FarWeeksOverflow(slots: map<SlotId, TimeSlot>, today: int, k: int)
    requires MinDay <= today <= MaxDay
    requires k >= 530000 || k <= -530000
    requires DigitCount(k) <= MaxStrDigits
    ensures Queryset(slots, Some(Js.IntToString(k)), today) == DateOverflow
  {
    ParseIntOfIntToString(k);
    assert WeekOffset(Some(Js.IntToString(k))) == Some(k);
  }

  /** This week and its neighbours are always listed for a day well inside the years 1 to 9999. */
  lemma {:induction false} NearWeeksAreListed(slots: map<SlotId, TimeSlot>, today: int, k: int)
    requires MinDay + 7100 <= today <= MaxDay - 7100
    requires -1000 <= k <= 1000
    ensures Queryset(slots, Some(Js.IntToString(k)), today).Listed?
  {
    Digits.NatToStringLength(if k < 0 then -k else k, 4);
    ParseIntOfIntToString(k);
    assert WeekOffset(Some(Js.IntToString(k))) == Some(k);
  }

  // ----- Agreement with the client's week -----

  /**
    For a client whose local calendar day is the server's UTC day (a client
    in UTC), the server's window starts on the very Monday the client shows
    for the same offset: `today - weekday` and `getDay`'s Sunday-first
    arithmetic land on the same day. A client in another time zone can be on
    a different day around midnight, and then its week can be a different
    one.
  */
  lemma {:induction false} WindowStartsOnTheClientsMonday(today: int, weekOffset: int)
    ensures WindowStart(today, weekOffset) == Calendar.StartOfWeek(today, weekOffset)
    ensures PyWeekday(WindowStart(today, weekOffset)) == 0
  {
    var q := (today + 3) / 7;
    assert today + 3 == 7 * q + PyWeekday(today);
    if PyWeekday(today) == 6 {
      assert today + 4 == 7 * (q + 1);
      assert Calendar.JsWeekday(today) == 0;
    } else {
      assert today + 4 == 7 * q + PyWeekday(today) + 1;
      assert Calendar.JsWeekday(today) == PyWeekday(today) + 1;
    }
    var s := WindowStart(today, weekOffset);
    assert s + 3 == 7 * (q + weekOffset);
  }

  /**
    For a client in UTC, whose local day of an instant t is t / MillisPerDay
    and whose today is the server's: a slot is listed for a week exactly
    when it starts on one of the seven days the client shows for that week,
    or at the very first moment of the following Monday.
  */
  lemma {:induction false} WindowIsTheClientWeekPlusOneInstant(t: Instant, today: int, weekOffset: int)
    ensures var monday := Calendar.StartOfWeek(today, weekOffset);
      InWindow(t, today, weekOffset) <==>
        (monday <= t / MillisPerDay < monday + 7) || t == (monday + 7) * MillisPerDay
  {
    WindowStartsOnTheClientsMonday(today, weekOffset);
    var monday := Calendar.StartOfWeek(today, weekOffset);
    var d := t / MillisPerDay;
    assert d * MillisPerDay <= t < (d + 1) * MillisPerDay;
    if monday <= d < monday + 7 {
      assert monday * MillisPerDay <= d * MillisPerDay;
      assert (d + 1) * MillisPerDay <= (monday + 7) * MillisPerDay;
    } else if d < monday {
      assert (d + 1) * MillisPerDay <= monday * MillisPerDay;
    } else {
      assert (monday + 7) * MillisPerDay <= d * MillisPerDay;
    }
  }

  /**
    Consecutive windows share exactly one instant, the Monday midnight
    between them: a slot starting then is listed for both weeks.
  */
  lemma {:induction false} ConsecutiveWindowsShareOneInstant(t: Instant, today: int, weekOffset: int)
    ensures InWindow(t, today, weekOffset) && InWindow(t, today, weekOffset + 1)
        <==> t == (WindowStart(today, weekOffset) + 7) * MillisPerDay
  {
    assert WindowStart(today, weekOffset + 1) == WindowStart(today, weekOffset) + 7;
  }

  /** The week the client asks for is the week the server lists, for an offset of at most `MaxStrDigits` digits. */
  lemma {:induction false} ClientWeekReachesTheServer(weekOffset: int)
    requires DigitCount(weekOffset) <= MaxStrDigits
    ensures WeekOffset(Some(Js.IntToString(weekOffset))) == Some(weekOffset)
  {
    ParseIntOfIntToString(weekOffset);
  }
}

=== FILE: user_view.dfy ===
/**
  The user's calendar view (`UserView.js`): who the viewer is, which week is
  shown, and for each slot its colour and the one control offered (Book,
  Unsubscribe or the "Occupied" note). Rendering is left out; the colour and
  the control are values.
*/
module UserView {
  import opened Wrappers
  import Js
  import Api
  import Calendar

  /** Claims of a decoded access token; a claim that is absent reads as undefined. */
  type Claims = map<string, Js.Value>

  function Claim(claims: Claims, name: string): Js.Value {
    if name in claims then claims[name] else Js.Undefined
  }

  /** The background colour of a slot row. */
  datatype Colour =
    | Own        // '#4D8A4F', green
    | Taken      // '#E15759', red
    | Preferred  // '#E6E753', yellow
    | Plain      // '', no colour

  /** The control under a slot row. */
  datatype Control = BookButton | UnsubscribeButton | OccupiedNote

  /**
    `isHighlighted(categoryId)`: with no category selected every category is
    highlighted; otherwise the selection must include the id.
  */
  predicate IsHighlighted(selected: seq<int>, categoryId: Js.Value) {
    |selected| == 0 || (categoryId.Num? && categoryId.n in selected)
  }

  /** `slot.category?.id || slot.category_id`: the id used for highlighting. */
  function HighlightId(slot: Api.SlotJson): Js.Value {
    Js.Or(Api.CategoryIdOf(slot.category), slot.categoryId)
  }

  /** The colour chain: the viewer's name first, then any owner, then the highlight. */
  function SlotColour(slot: Api.SlotJson, username: Js.Value, selected: seq<int>): Colour {
    if slot.user == username then Own
    else if Js.Truthy(slot.user) then Taken
    else if IsHighlighted(selected, HighlightId(slot)) then Preferred
    else Plain
  }

  /** The control chooser: freeness first, then the viewer's name. */
  function SlotControl(slot: Api.SlotJson, username: Js.Value): Control {
    if !Js.Truthy(slot.user) then BookButton
    else if slot.user == username then UnsubscribeButton
    else OccupiedNote
  }

  /** What clicking the control sends: a booking or an unsubscription for this slot, or nothing. */
  function ClickRequest(slot: Api.SlotJson, control: Control): (r: Option<Api.Request>)
    ensures r.Some? <==> control != OccupiedNote
    ensures r.Some? ==> r.value.verb == Api.Post && r.value.body == Api.NoBody
    ensures control == BookButton ==> r == Some(Api.Request(Api.Post, Api.SlotBook(slot.id), Api.NoBody))
    ensures control == UnsubscribeButton ==> r == Some(Api.Request(Api.Post, Api.SlotUnsubscribe(slot.id), Api.NoBody))
  {
    match control
    case BookButton => Some(Api.Request(Api.Post, Api.SlotBook(slot.id), Api.NoBody))
    case UnsubscribeButton => Some(Api.Request(Api.Post, Api.SlotUnsubscribe(slot.id), Api.NoBody))
    case OccupiedNote => None
  }

  /**
    The classification of a slot relative to a viewer, stated on its own: a
    slot with no owner is free (preferred or not); a slot owned under the
    viewer's name is the viewer's; any other owned slot is someone else's.
  */
  datatype SlotState = FreePreferred | FreeOther | BookedByMe | BookedByOther

  function Classify(owner: Option<string>, viewer: string, preferred: bool): SlotState {
    match owner
    case None => if preferred then FreePreferred else FreeOther
    case Some(name) => if name == viewer then BookedByMe else BookedByOther
  }

  /** The owner field as the API sends it: null for a free slot, the owner's name otherwise. */
  function OwnerField(owner: Option<string>): Js.Value {
    match owner
    case None => Js.Null
    case Some(name) => Js.Str(name)
  }

  /**
    For a signed-in viewer with a non-empty name and a slot whose owner is
    null or a non-empty name, colour and control both follow the
    classification: green with Unsubscribe exactly for the viewer's own slots,
    red with "Occupied" exactly for other owners' slots, and Book on every
    free slot, yellow exactly when its category is highlighted.
  */
  lemma {:induction false} ColourAndControlFollowClassification(
    slot: Api.SlotJson, owner: Option<string>, viewer: string, selected: seq<int>)
    requires slot.user == OwnerField(owner)
    requires owner.Some? ==> owner.value != ""
    requires viewer != ""
    ensures var state := Classify(owner, viewer, IsHighlighted(selected, HighlightId(slot)));
      && (SlotColour(slot, Js.Str(viewer), selected) == Own <==> state == BookedByMe)
      && (SlotColour(slot, Js.Str(viewer), selected) == Taken <==> state == BookedByOther)
      && (SlotColour(slot, Js.Str(viewer), selected) == Preferred <==> state == FreePreferred)
      && (SlotColour(slot, Js.Str(viewer), selected) == Plain <==> state == FreeOther)
      && (SlotControl(slot, Js.Str(viewer)) == BookButton <==> state in {FreePreferred, FreeOther})
      && (SlotControl(slot, Js.Str(viewer)) == UnsubscribeButton <==> state == BookedByMe)
      && (SlotControl(slot, Js.Str(viewer)) == OccupiedNote <==> state == BookedByOther)
  {
    match owner
    case None =>
      assert slot.user == Js.Null;
    case Some(name) =>
      assert slot.user == Js.Str(name) && Js.Truthy(slot.user);
  }

  /**
    The colour chain tests the name before freeness while the control chooser
    tests freeness first: with no name known (`username` still null) a free
    slot is coloured as the viewer's own yet offered for booking.
  */
  lemma NullNameColoursFreeSlotsAsOwn(slot: Api.SlotJson, selected: seq<int>)
    requires slot.user == Js.Null
    ensures SlotColour(slot, Js.Null, selected) == Own
    ensures SlotControl(slot, Js.Null) == BookButton
  {
  }

  /** With an empty selection every category is highlighted; otherwise exactly the selected ones. */
  lemma EmptySelectionHighlightsAll(selected: seq<int>, categoryId: Js.Value)
    ensures |selected| == 0 ==> IsHighlighted(selected, categoryId)
    ensures |selected| > 0 ==> (IsHighlighted(selected, categoryId) <==> exists k :: k in selected && categoryId == Js.Num(k))
  {
  }

  /**
    The highlight id is the record's `id` when the category arrives as a
    record with a truthy id, and `category_id` otherwise, in particular when
    the category arrives as its name.
  */
  lemma HighlightIdFallback(slot: Api.SlotJson)
    ensures slot.category.Record? && Js.Truthy(slot.category.id) ==> HighlightId(slot) == slot.category.id
    ensures slot.category.Named? ==> HighlightId(slot) == slot.categoryId
  {
  }

  /**
    `decoded.user_id || decoded.sub` and `decoded.username || decoded.name`:
    the first claim when it is truthy, the fallback claim otherwise.
  */
  function IdentityOf(claims: Claims): (r: (Js.Value, Js.Value))
    ensures Js.Truthy(Claim(claims, "user_id")) ==> r.0 == claims["user_id"]
    ensures !Js.Truthy(Claim(claims, "user_id")) ==> r.0 == Claim(claims, "sub")
    ensures Js.Truthy(Claim(claims, "username")) ==> r.1 == claims["username"]
    ensures !Js.Truthy(Claim(claims, "username")) ==> r.1 == Claim(claims, "name")
  {
    (Js.Or(Claim(claims, "user_id"), Claim(claims, "sub")),
     Js.Or(Claim(claims, "username"), Claim(claims, "name")))
  }

  /** The state of the user view component. */
  class UserViewState {
    var selectedCategories: seq<int>
    var slots: seq<Api.SlotJson>
    var weekOffset: int
    var loading: bool
    var userId: Js.Value
    var username: Js.Value

    /** The initial state: nothing selected, no slots, this week, loading, nobody known. */
    constructor ()
      ensures selectedCategories == [] && slots == [] && weekOffset == 0 && loading
      ensures userId == Js.Null && username == Js.Null
    {
      selectedCategories := [];
      slots := [];
      weekOffset := 0;
      loading := true;
      userId := Js.Null;
      username := Js.Null;
    }

    /**
      The identity effect on mount: with a stored token, id and name come
      from its claims with their fallbacks; without one nothing changes.
    */
    method LoadIdentity(token: Option<Claims>)
      modifies this
      ensures token.None? ==> userId == old(userId) && username == old(username)
      ensures token.Some? ==> (userId, username) == IdentityOf(token.value)
      ensures selectedCategories == old(selectedCategories) && slots == old(slots)
      ensures weekOffset == old(weekOffset) && loading == old(loading)
    {
      if token.Some? {
        var decoded := token.value;
        userId := Js.Or(Claim(decoded, "user_id"), Claim(decoded, "sub"));
        username := Js.Or(Claim(decoded, "username"), Claim(decoded, "name"));
      }
    }

    /** The request `fetchSlots` sends: the slot list for the shown week offset. */
    function FetchRequest(): (r: Api.Request)
      reads this
      ensures r.verb == Api.Get && r.body == Api.NoBody
      ensures r.endpoint.SlotList? && r.endpoint.week == Some(Js.IntToString(weekOffset))
    {
      Api.WeekListRequest(weekOffset)
    }

    /**
      `fetchSlots`: loading starts and the slot list of the shown week is
      requested; nothing else changes until the reply arrives.
    */
    method FetchSlots() returns (request: Api.Request)
      modifies this
      ensures loading && request == FetchRequest()
      ensures selectedCategories == old(selectedCategories) && slots == old(slots) && weekOffset == old(weekOffset)
      ensures userId == old(userId) && username == old(username)
    {
      loading := true;
      request := Api.WeekListRequest(weekOffset);
    }

    /** A successful fetch stores the listed slots and stops loading; a failed one only stops loading. */
    method ReceiveSlots(reply: Option<seq<Api.SlotJson>>)
      modifies this
      ensures slots == if reply.Some? then reply.value else old(slots)
      ensures !loading
      ensures selectedCategories == old(selectedCategories) && weekOffset == old(weekOffset)
      ensures userId == old(userId) && username == old(username)
    {
      if reply.Some? {
        slots := reply.value;
      }
      loading := false;
    }

    /**
      "Previous Week": one week back; the effect on `weekOffset` then runs
      `fetchSlots` for the new week, so loading starts again.
    */
    method PreviousWeek() returns (request: Api.Request)
      modifies this
      ensures weekOffset == old(weekOffset) - 1
      ensures loading && request == FetchRequest()
      ensures request.endpoint == Api.SlotList(Some(Js.IntToString(old(weekOffset) - 1)))
      ensures selectedCategories == old(selectedCategories) && slots == old(slots)
      ensures userId == old(userId) && username == old(username)
    {
      weekOffset := weekOffset - 1;
      request := FetchSlots();
    }

    /** "Next Week": one week forward, and the new week's slots are fetched. */
    method NextWeek() returns (request: Api.Request)
      modifies this
      ensures weekOffset == old(weekOffset) + 1
      ensures loading && request == FetchRequest()
      ensures request.endpoint == Api.SlotList(Some(Js.IntToString(old(weekOffset) + 1)))
      ensures selectedCategories == old(selectedCategories) && slots == old(slots)
      ensures userId == old(userId) && username == old(username)
    {
      weekOffset := weekOffset + 1;
      request := FetchSlots();
    }

    /** The calendar the view renders: the seven day buckets of the stored slots for the shown week. */
    method GroupedDays(parse: string -> Option<Calendar.Moment>, now: Calendar.Moment)
      returns (days: seq<Calendar.DayBucket>)
      ensures days == Calendar.Week(slots, parse, Calendar.StartOfWeek(now.day, weekOffset))
    {
      days := Calendar.GroupSlotsByDay(slots, parse, now, weekOffset);
    }
  }
}
